=== FILE: README.md ===
# A Dafny model of the cloud-incident forum front end

The modelled system is a React single-page application. It is a forum for
cloud incidents: users sign in, browse and filter posts, and create posts of
four kinds (question, issue, news, poll). They can comment, reply, upvote and
vote in polls, manage their profile, and read a knowledge base. This project
models its behavioural core as pure state transitions:

- the session provider: hydration from storage, login, register, logout and
  profile update;
- the notification queue;
- the route guard;
- the HTTP client layer: the bearer-token interceptor, the error envelope and
  the endpoint table;
- every page handler that decides something.

Each handler is a function from the page's state, the user's input and the
server's answer to the page's next state and the request it issued.

Modules follow the source files:

- `Wrappers`, `Text`, `Seqs`: option and result types, JavaScript string
  semantics (trim, truthiness, lower-case, `includes`, `split`/`join`), and
  order-preserving filtering and sums.
- `Entities`, `Storage`: the records the pages handle, and `localStorage` as
  a map.
- `Api` (src/services/api.js): the envelope, `handleApiError`, the
  interceptor, the routes, and which wrapper names exist.
- `Auth` (src/contexts/AuthContext.js), `Toasts` (src/contexts/ToastContext.js),
  `Guard` (src/components/PrivateRoute.js), `Header`, `Sidebar`.
- `LoginPage`, `RegisterPage`, `GithubSuccess`, `Dashboard`.
- `Feed`, `Polls`, `Threads`: the post list, poll tallies and comment threads
  shared by `IncidentsList` and `MyQueries`.
- `IncidentDetail`, `UserProfile`, `SubmitIncident`, `KnowledgeBase`,
  `KnowledgeBaseDetail`.

The network, the clock, timers, `encodeURIComponent` and the browser's
confirmation dialog are inputs. A server answer is an `Api.Response`, which
is either `Success(data)` or `Failure(message)`. A request that a page makes
through a wrapper name the API module does not define is an `Api.Answer`
that may be an exception.

## Model

| member | source | states |
|---|---|---|
| Api.HandleApiError | src/services/api.js:19-46 | every envelope is a failure with a non-empty message: the server's message (or the default) with status and body for an answered request, the fixed no-response text, or the default for a setup error |
| Api.Invoke | src/services/api.js:50-57 | a wrapper hands over the server's envelope or the `handleApiError` envelope; it never throws |
| Api.RaisedNeverUsesFallback | src/services/api.js:50-57 | a rejected request always carries a non-empty message, so a page's own fallback text only shows for failures the server reported without one |
| Api.Intercept | src/services/api.js:10-16 | with a stored token the `Authorization` header becomes `Bearer <token>`; without one the headers are unchanged; no other header is touched or added |
| Storage.GetText | src/services/api.js:11-12 | a text read counts only when the key holds a non-empty string, and then it is that string |
| Storage.GetUser | src/contexts/AuthContext.js:18-20 | a stored user is read back exactly when the key holds one, and it is the value stored |
| Storage.Present | src/pages/SubmitIncident.js:182-183 | a key is present in the `getItem` truthiness sense exactly when it holds a non-empty text or a user |
| Entities.UserKey | src/pages/MyQueries.js:28 | `_id || id` is present exactly when one of the two is a non-empty string, prefers `_id`, and is never empty |
| Entities.UserPathSegment | src/pages/UserProfile.js:73 | the path segment is the user's identifier when there is one; otherwise it is empty exactly for an empty `id`, and `undefined` for a missing one |
| Api.BearerCredential | src/services/api.js:13 | a credential read back from a `Bearer` header value is non-empty and rebuilds the value |
| Api.InterceptCarriesStoredToken | src/services/api.js:10-16 | the credential on an intercepted request is exactly the stored token, and without a token the presence of an `Authorization` header is what the caller gave |
| Api.Endpoint | src/services/api.js:48-234 | exactly the four calls the pages make under names the API module does not define have no route |
| Api.ReplyPathSegments | src/services/api.js:183-190 | the reply route is a POST whose path splits into `incidents`, post id, `comments`, comment id, `replies`, so distinct (post, comment) pairs get distinct paths |
| Api.Perform | src/services/api.js:236-241 | a call throws exactly when the `api` object has no wrapper for it; otherwise the page gets the wrapper's envelope |
| Api.Caught | src/pages/KnowledgeBase.js:33-34 | the text a `catch` shows is non-empty and is the exception's message when it has one |
| Auth.Mount | src/contexts/AuthContext.js:12-13 | the provider starts with nobody signed in and its children withheld |
| Auth.Hydrate | src/contexts/AuthContext.js:17-23 | the persisted user, if any, becomes the session user; storage is only read; loading ends |
| Auth.StartupRestoresPersistedUser | src/contexts/AuthContext.js:17-23 | after start-up the session user is the persisted user or nobody, and the children render only after hydration |
| Auth.RendersChildren | src/contexts/AuthContext.js:114 | the provider renders its children only once loading is over |
| Auth.Authenticate | src/contexts/AuthContext.js:44-52 | on acceptance token and user are stored and the user adopted; a non-OK answer throws the server message or the fallback and changes nothing; a transport error is rethrown unchanged |
| Auth.Login | src/contexts/AuthContext.js:27-57 | login succeeds exactly when the server accepts; a rejection throws the server's message or `Login failed` and leaves the session as it was |
| Auth.EmailPrefixIsLocalPart | src/contexts/AuthContext.js:72 | `email.split('@')[0]` is a prefix of the address without `@`, followed by `@` when the address has one, and is the whole address otherwise |
| Auth.RegisterName | src/contexts/AuthContext.js:72 | the name sent is the given name when truthy, else the address's local part |
| Auth.Register | src/contexts/AuthContext.js:60-93 | the body carries email and password; without a name, the name sent has no `@` and starts the address; the outcome mirrors login's with `Registration failed` |
| Auth.Logout | src/contexts/AuthContext.js:96-99 | the stored and in-memory user are gone and every other stored entry is untouched |
| Auth.LogoutKeepsToken | src/contexts/AuthContext.js:96-99 | logging out leaves the token in storage |
| Auth.UpdateUserProfile | src/contexts/AuthContext.js:100-103 | the given user becomes the session user and the stored user; other stored entries are untouched |
| Auth.PersistedUserMatchesMemory | src/contexts/AuthContext.js:17-103 | after a successful login or register, a logout, or a profile update, a fresh start restores exactly the user held in memory |
| Toasts.AddToast | src/contexts/ToastContext.js:14-23 | one toast is appended with the clock as id, type `success` and self-hiding by default, and its removal is scheduled exactly when it hides itself |
| Toasts.RemoveToast | src/contexts/ToastContext.js:25-27 | removal keeps exactly the queued toasts with another id |
| Toasts.RemoveToastLaws | src/contexts/ToastContext.js:25-27 | removal keeps the order, ignores an unknown id and is idempotent |
| Toasts.ExpiryUndoesAdd | src/contexts/ToastContext.js:14-27 | when a fresh toast's timer fires the queue is what it was before the toast was added |
| Toasts.HeaderLabel | src/contexts/ToastContext.js:45 | the header reads Success for `success`, Error for `danger` and Notification for anything else, and nothing else maps to those labels |
| Guard.Decide | src/components/PrivateRoute.js:5-15 | children render exactly when somebody is signed in; otherwise the visitor is sent to `/login`, replacing history and remembering the location |
| Guard.DecisionDependsOnlyOnPresence | src/components/PrivateRoute.js:9 | the decision depends only on whether a user is present, not on which user or role |
| LoginPage.PostLoginTarget | src/pages/Login.js:21 | the target after signing in is the remembered path when there is a non-empty one, and `/dashboard` otherwise |
| LoginPage.GuardThenLoginReturns | src/pages/Login.js:21 | a visitor redirected by the guard returns, after signing in, to the page they were going to |
| LoginPage.Submit | src/pages/Login.js:23-36 | a successful login adopts the user and navigates to the target replacing history; any failure shows the fixed message and leaves the session alone |
| LoginPage.GoogleCallback | src/pages/Login.js:38-65 | success stores token and user and opens the dashboard; a refusal shows the server message or the fixed one; a failed fetch shows the fixed one; storage changes only on success |
| LoginPage.GoogleLoginWith | src/pages/Login.js:38-65 | the page's Google callback stores token and user on success and updates the session only when the context provides `setCurrentUser` |
| LoginPage.GoogleLogin | src/pages/Login.js:17-53 | as written the session user never changes, since the context provides no `setCurrentUser` |
| LoginPage.GoogleSignInBouncesToLogin | src/pages/Login.js:48-56 | a successful Google sign-in from a signed-out session stores the user but opens a dashboard the guard redirects to `/login` |
| LoginPage.GoogleLoginCorrected | src/pages/Login.js:53 | with the setter provided, a successful Google sign-in adopts the user and any other answer leaves the session unchanged |
| LoginPage.CorrectedGoogleSignInReachesDashboard | src/pages/Login.js:48-56 | with the setter provided, the dashboard renders after Google sign-in and a reload restores the same user |
| RegisterPage.Submit | src/pages/Register.js:20-37 | mismatched passwords are refused before any request; otherwise a registration is sent and success opens the dashboard, failure shows the fixed message |
| RegisterPage.SignUpNamesAccountAfterLocalPart | src/pages/Register.js:30 | sign-up sends no name, so the account is named after the address's local part, and a successful sign-up passes the guard |
| RegisterPage.GoogleSignUp | src/pages/Register.js:39-63 | the callback stores token and user on success but never changes the session user |
| RegisterPage.GoogleSignUpBouncesUntilReload | src/pages/Register.js:49-54 | after a successful Google sign-up the dashboard redirects to `/login` until a reload hydrates the stored user |
| GithubSuccess.Land | src/pages/GithubSuccess.js:8-19 | a non-empty query token is stored and the dashboard opened; otherwise storage is untouched and the login page opened |
| GithubSuccess.GithubTokenWithoutUserIsStillGuarded | src/pages/GithubSuccess.js:12-15 | no user is stored, so the dashboard the page opens still redirects to the login page, while later requests carry the token |
| Header.SearchTarget | src/components/Header.js:11-16 | the search navigates exactly when the trimmed query is non-empty, sending the untrimmed query encoded |
| Header.SearchNeedsVisibleCharacter | src/components/Header.js:13 | the search navigates exactly when the query has a non-whitespace character |
| Header.SignOut | src/components/Header.js:18-25 | signing out leaves nobody in memory or storage and goes home |
| Header.SignOutLocksGuardedPages | src/components/Header.js:18-25 | after signing out every guarded page redirects, also after a reload, and the token stays stored |
| Header.DisplayName | src/components/Header.js:68 | the shown name is the user's name when truthy, else `User`, never empty |
| Header.AvatarInitial | src/components/Header.js:66 | the avatar is one character: the upper-cased first letter of the name, else `U` |
| Header.AvatarShowsDisplayedInitial | src/components/Header.js:66-68 | the avatar letter is the upper-cased first letter of the displayed name |
| Sidebar.NavItems | src/components/Sidebar.js:12-26 | the two public items come first; the two member items follow exactly when somebody is signed in |
| Sidebar.NavItemsDistinct | src/components/Sidebar.js:32 | item ids and paths are pairwise distinct, so without an active page at most one item is highlighted |
| Sidebar.IsActive | src/components/Sidebar.js:32 | an item is highlighted when the page names it or when the browser is on its path, whichever item the page names; only then is it highlighted |
| Dashboard.Mount | src/pages/Dashboard.js:14-16 | the page starts loading and remembers whether the session flag was already set |
| Dashboard.Tick | src/pages/Dashboard.js:19-27 | when the timer fires loading stops; unless the flag was set, one `success` toast with the load message is appended and the flag set |
| Dashboard.AtMostOneAnnouncementPerSession | src/pages/Dashboard.js:14-27 | over any number of visits taken one after another in one session, the load toast appears once if the flag was unset and never otherwise |
| Dashboard.OverlappingVisitsAnnounceTwice | src/pages/Dashboard.js:14-34 | two visits whose mounts both come before the first timer fires both find the flag unset, and two load toasts are queued |
| Polls.Counts | src/pages/IncidentsList.js:546 | each option's count is its votes, a missing count read as zero |
| Polls.TotalBounds | src/pages/IncidentsList.js:546 | the vote total is non-negative, bounds every option's count, and is zero exactly when no option has a vote |
| Polls.Total | src/pages/IncidentsList.js:546 | the total of `votes || 0` over the options is never negative, and is zero for a poll without options |
| Polls.CastVote | src/pages/IncidentsList.js:294-334 | after a vote the chosen option is selected; it gains one vote unless it was already selected; the previously selected option loses one, floored at zero; other options and the rest of the post are unchanged |
| Polls.FreshVoteAddsOne | src/pages/IncidentsList.js:294-334 | a first vote for an existing option adds exactly one to the total |
| Polls.SwitchKeepsTotal | src/pages/IncidentsList.js:294-334 | moving a vote from an option that has one to another keeps the total |
| Polls.RevoteKeepsTallies | src/pages/IncidentsList.js:294-334 | voting again for the selected option leaves every count unchanged |
| Polls.RetractVote | src/pages/IncidentsList.js:250-292 | withdrawing clears the selection; only the previously selected option loses a vote, floored at zero |
| Polls.RetractWithoutSelectionKeepsTallies | src/pages/IncidentsList.js:250-292 | withdrawing with nothing selected changes no count |
| Polls.RetractUndoesFreshVote | src/pages/IncidentsList.js:250-334 | withdrawing a first vote restores every count and the total |
| Feed.AdoptVotedOption | src/pages/IncidentsList.js:46-55 | a poll with a recorded vote shows that option as selected; every other post, including one whose recorded vote is absent, is unchanged |
| Feed.LoadPosts | src/pages/IncidentsList.js:44-61 | the loaded list keeps the order and length of what was received, each post adjusted |
| Feed.LoadPostsLaws | src/pages/IncidentsList.js:46-55 | loading changes at most the selected option and is idempotent |
| Feed.UpdateById | src/pages/IncidentsList.js:299-330 | exactly the posts with the id are transformed; the others keep their place and value |
| Feed.UpdateAbsentId | src/pages/IncidentsList.js:299-330 | updating an id no post carries changes nothing |
| Feed.FindById | src/pages/IncidentsList.js:121 | a found post is in the list and carries the id; nothing is found exactly when no post has the id |
| Feed.Visible | src/pages/IncidentsList.js:74-111 | a post is shown exactly when it is loaded and passes the filter: the type test, and when the search is non-empty, the text test |
| Feed.Passes | src/pages/IncidentsList.js:74-111 | a post passes exactly when its type is the chosen one (or every type is chosen) and, for a non-empty search, one of its searchable texts lower-cased contains the lower-cased search |
| Feed.SearchHitIffSomeText | src/pages/IncidentsList.js:84-108 | a post matches a search term exactly when one of its tags, author name, provider, title or service contains it lower-cased |
| Feed.VisibleLaws | src/pages/IncidentsList.js:74-111 | the shown list keeps order; `all` with no search shows everything; a search only narrows the type filter's result |
| Feed.SearchIgnoresCase | src/pages/IncidentsList.js:84-86 | the case of the search text does not change what is shown |
| Threads.AppendReply | src/pages/IncidentsList.js:188-195 | the reply is appended to exactly the comments with the target id; the others are unchanged |
| Threads.AppendReplyCount | src/pages/IncidentsList.js:188-195 | the number of replies grows by the number of comments carrying the target id |
| Threads.CarryingDistinct | src/pages/IncidentsList.js:188-195 | with distinct comment ids a known target is carried by exactly one comment and an unknown one by none |
| Threads.AppendReplyUnknownTarget | src/pages/IncidentsList.js:188-195 | a reply to an unknown comment id changes nothing |
| Threads.ReplyTo | src/pages/IncidentsList.js:175-177 | choosing a comment to reply to changes only the target |
| Threads.SubmitReply | src/pages/IncidentsList.js:180-207 | a reply is sent exactly when the draft is non-blank and a target and a post are chosen; success appends it to the target and clears draft and target; failure changes nothing |
| Threads.CanReply | src/pages/IncidentsList.js:181 | a reply can be sent exactly when the draft is non-blank, a non-empty target is chosen and a post is open |
| Threads.SendComment | src/pages/IncidentsList.js:158-171 | success appends the new comment last and clears only the draft; failure changes nothing |
| Threads.ReplyAddsOne | src/pages/IncidentsList.js:180-207 | with distinct comment ids a successful reply to an existing comment adds exactly one reply and keeps the comments in order |
| IncidentsList.Initial | src/pages/IncidentsList.js:12-25 | the page starts loading with no posts, the `all` filter, no search and no section open |
| IncidentsList.Load | src/pages/IncidentsList.js:29-61 | success adopts the adjusted list; failure shows the server's message or the fixed one; loading ends either way |
| IncidentsList.OpenComments | src/pages/IncidentsList.js:118-149 | clicking an open section closes every section without a request; otherwise the post's comments are requested and, on success, become the list with only that section open |
| IncidentsList.OpenCommentsKeepsOneOpen | src/pages/IncidentsList.js:118-149 | opening and closing comment sections keeps at most one section open |
| IncidentsList.SubmitComment | src/pages/IncidentsList.js:152-172 | a blank draft, no open post or no user raises the log-in alert and sends nothing; otherwise the comment is sent and appended on success |
| IncidentsList.Reply | src/pages/IncidentsList.js:175-177 | choosing a reply target changes only the target |
| IncidentsList.SubmitReplyOnList | src/pages/IncidentsList.js:180-207 | the reply rule applies to the page's thread and leaves posts and open sections alone |
| IncidentsList.SubmitVote | src/pages/IncidentsList.js:294-334 | without a user nothing happens; otherwise the vote is sent and on success only the posts with that id are updated |
| IncidentsList.RemoveVote | src/pages/IncidentsList.js:250-292 | without a user nothing happens; otherwise the withdrawal is sent and on success only the posts with that id are updated |
| IncidentsList.VoteThenWithdraw | src/pages/IncidentsList.js:250-334 | a first vote adds one to that post's total and leaves other posts alone; withdrawing restores its counts |
| IncidentsList.HandlersKeepOneOpen | src/pages/IncidentsList.js:29-334 | loading, voting, withdrawing, commenting and replying leave the set of open comment sections exactly as it was, so each keeps at most one open |
| MyQueries.Fetch | src/pages/MyQueries.js:26-48 | a user without an id is not asked about and loading stops; otherwise that user's posts are requested and adopted, or the error shown |
| MyQueries.FetchedPostsAreShown | src/pages/MyQueries.js:26-53 | after a successful fetch the page shows exactly the posts received, or none when no list came; without an identifier nothing is asked and the shown posts stay |
| MyQueries.SameRequestAsProfile | src/pages/MyQueries.js:31 | for a user with an identifier this page requests the same path as the profile page's posts tabs |
| MyQueries.ShownIsEverything | src/pages/MyQueries.js:11-53 | the active filter is fixed at `all`, so every fetched post is shown, in order |
| MyQueries.StatusPasses | src/pages/MyQueries.js:50-53 | with the filter at `all` every post passes; with another filter exactly the posts with that status pass |
| MyQueries.Upvoted | src/pages/MyQueries.js:69-76 | an upvoted post has one more vote, a missing count read as zero, is marked voted, and is otherwise unchanged |
| MyQueries.Upvote | src/pages/MyQueries.js:56-85 | without a user nothing happens; otherwise the upvote is sent and on success only the posts with that id change |
| MyQueries.UpvoteRaisesSum | src/pages/MyQueries.js:56-85 | a successful upvote raises the page's vote sum by the number of posts with that id |
| MyQueries.StatusBadge | src/pages/MyQueries.js:88-105 | exactly the six known statuses get a badge |
| MyQueries.BadgesDistinct | src/pages/MyQueries.js:88-105 | different statuses get different captions and colours |
| MyQueries.OpenComments | src/pages/MyQueries.js:109-126 | the modal opens on the post and its comments are requested; on success they become the list |
| MyQueries.SubmitComment | src/pages/MyQueries.js:129-145 | a blank draft or no open post sends nothing; no sign-in check is made; success appends the comment and clears the draft |
| MyQueries.Reply | src/pages/MyQueries.js:148-150 | choosing a reply target changes only the target |
| MyQueries.SubmitReplyHere | src/pages/MyQueries.js:153-180 | the reply rule applies to the page's thread |
| MyQueries.Summarise | src/pages/MyQueries.js:451-460 | the summary's total is the number of posts, and its open, answered and escalated figures are the numbers of posts with each status, counted one by one |
| MyQueries.WithStatusCounts | src/pages/MyQueries.js:452-460 | filtering the posts by a status keeps as many posts as carry that status |
| MyQueries.SummaryWithinTotal | src/pages/MyQueries.js:451-460 | the open, answered and escalated counts together never exceed the total |
| IncidentDetail.Load | src/pages/IncidentDetail.js:22-42 | success adopts the post and its comments (none when it has no list); failure shows the server's message or the fixed one |
| IncidentDetail.Submit | src/pages/IncidentDetail.js:45-73 | a blank draft sends nothing; otherwise a comment (a reply when a target is chosen) is created; success appends it and clears draft and target; failure alerts the server message or the fixed one |
| IncidentDetail.ReplyJoinsList | src/pages/IncidentDetail.js:55-65 | a successful reply names the chosen parent and adds one comment, keeping the rest |
| IncidentDetail.SubmitAsWritten | src/pages/IncidentDetail.js:45-73 | as written the handler may also see an exception, which it alerts, leaving the comments unchanged |
| IncidentDetail.AsWrittenCommentsNeverPost | src/pages/IncidentDetail.js:55 | as written no comment or reply is ever added; an alert is always raised |
| IncidentDetail.ToggleReply | src/pages/IncidentDetail.js:76-83 | choosing the chosen comment again clears the choice; choosing another one chooses it and clears the draft |
| IncidentDetail.ToggleTwice | src/pages/IncidentDetail.js:76-83 | toggling an unchosen comment twice ends with none chosen; toggling the chosen one twice keeps it chosen with an empty draft |
| IncidentDetail.AnswerWord | src/pages/IncidentDetail.js:124 | the caption is singular exactly for one comment |
| IncidentDetail.Render | src/pages/IncidentDetail.js:85-163 | loading shows a spinner, then an error, then the post; Reply buttons appear exactly when a post is loaded, somebody is signed in and there are comments |
| IncidentDetail.LoadedPageShowsPost | src/pages/IncidentDetail.js:22-124 | after a successful load the page shows the post with the caption for its comment count |
| UserProfile.InitForm | src/pages/UserProfile.js:55-65 | each form field is the user's field when truthy, else empty |
| UserProfile.NonEmpty | src/pages/UserProfile.js:55-65 | an empty field reads as absent and is filled back as empty |
| UserProfile.InitFormRoundTrip | src/pages/UserProfile.js:55-65 | filling the form from the user a form describes gives back the same form |
| UserProfile.Effect | src/pages/UserProfile.js:55-91 | with a user the form is filled; the user's posts are requested, under `_id || id` as the path segment, exactly on the posts and activity tabs, and adopted on success; a failure keeps the list |
| UserProfile.EffectLaws | src/pages/UserProfile.js:55-91 | on the other tabs nothing is requested and the posts stay; the filled form reads back as itself; re-running the effect with the same user, tab and answer changes nothing |
| UserProfile.FilledFormReadsBackUser | src/pages/UserProfile.js:57-65 | a user with no empty-string field is recovered from the form filled from it |
| UserProfile.FetchesOn | src/pages/UserProfile.js:88-90 | posts are fetched exactly on the `posts` and `activity` tabs |
| UserProfile.AvatarToSend | src/pages/UserProfile.js:159-166 | the avatar sent is the chosen picture under `/Avatars/`, else the form's |
| UserProfile.UpdateProfile | src/pages/UserProfile.js:146-186 | an empty avatar is refused before any request; otherwise the profile is sent, and on success the session and form adopt the returned user |
| UserProfile.UpdatedProfileIsAdopted | src/pages/UserProfile.js:146-186 | after a successful update the session, the stored user and the form's avatar agree with the server's answer |
| UserProfile.UpdatePassword | src/pages/UserProfile.js:189-224 | mismatched new passwords are refused before any request; success clears every password field; failure keeps them and shows the error |
| UserProfile.PasswordRequestsAreConfirmed | src/pages/UserProfile.js:189-224 | every password request carries the current password and a new password equal to its confirmation; a refused or failed update keeps the typed passwords, and a refusal shows the mismatch message |
| UserProfile.DeleteAccount | src/pages/UserProfile.js:282-308 | the request is issued exactly when the confirmation equals the user's email; success signs out and goes home; failure shows the error and closes the dialog |
| UserProfile.EnabledButtonDeletes | src/pages/UserProfile.js:1005 | the delete button is enabled only when pressing it issues the request, and a completed deletion leaves nobody signed in |
| UserProfile.DeleteDisabled | src/pages/UserProfile.js:1005 | the button is disabled while loading, and enabled exactly when a user is signed in whose email equals the typed confirmation |
| UserProfile.OfKind | src/pages/UserProfile.js:562-564 | a per-type list holds exactly the posts of that type |
| UserProfile.OfKindLaws | src/pages/UserProfile.js:963-969 | per-type lists keep order, and the question and issue counts together never exceed the posts |
| UserProfile.RecentActivity | src/pages/UserProfile.js:528 | the recent list is the first five posts, or all of them when fewer: its length is the smaller of five and the number of posts |
| UserProfile.RecentIgnoresLaterPosts | src/pages/UserProfile.js:528 | once there are five posts, posts after them never change the recent list, and the recent list of the recent list is itself |
| UserProfile.PollVotes | src/pages/UserProfile.js:669 | a poll's shown total is non-negative and at least each option's count |
| SubmitIncident.Initial | src/pages/SubmitIncident.js:13-41 | the form starts as a question with provider `aws`, two empty poll options and step one |
| SubmitIncident.Reset | src/pages/SubmitIncident.js:48-73 | a type change clears the common fields and the new type's own fields, and leaves the other types' fields, the tag input, the error and the loading flag alone |
| SubmitIncident.SetKind | src/pages/SubmitIncident.js:48-73 | the reset runs only when the type actually changes |
| SubmitIncident.FilledOptions | src/pages/SubmitIncident.js:85 | the options sent are exactly the non-blank ones |
| SubmitIncident.Validate | src/pages/SubmitIncident.js:79-115 | a poll passes exactly with a question and two filled options; an issue with a title and, on step one, a start time and a service; news with a headline; other types with title and description |
| SubmitIncident.BuildPayload | src/pages/SubmitIncident.js:122-164 | the body carries type, provider and tags, and exactly the fields of its type |
| SubmitIncident.ValidPollSendsFilledOptions | src/pages/SubmitIncident.js:79-164 | a valid poll sends at least two options, all filled, in the order typed |
| SubmitIncident.ResetFormIsInvalid | src/pages/SubmitIncident.js:48-115 | a form just reset by a type change never validates |
| SubmitIncident.Submit | src/pages/SubmitIncident.js:75-178 | an invalid form shows the first failing check's message and sends nothing; a valid one is sent and success opens the list |
| SubmitIncident.TagKeyDown | src/pages/SubmitIncident.js:194-203 | Enter with a non-blank input adds the trimmed tag when there is room and it is new, and clears the input; other keys change nothing |
| SubmitIncident.RemoveTag | src/pages/SubmitIncident.js:205-207 | removal drops the tag and keeps every other |
| SubmitIncident.TagKeyDownKeepsTagsOk | src/pages/SubmitIncident.js:194-203 | adding a tag on Enter keeps the tags at most five, distinct, trimmed and non-empty |
| SubmitIncident.RemoveTagKeepsTagsOk | src/pages/SubmitIncident.js:205-207 | removing a tag keeps the tag invariant and the order of the remaining tags |
| SubmitIncident.TagOperationsKeepTagsOk | src/pages/SubmitIncident.js:194-207 | tags stay at most five, distinct, trimmed and non-empty under every tag operation and type change |
| SubmitIncident.AddOption | src/pages/SubmitIncident.js:230-234 | an empty option is added only while there are fewer than six |
| SubmitIncident.OptionChange | src/pages/SubmitIncident.js:224-228 | editing an option changes only that option |
| SubmitIncident.OptionOperationsKeepOptionsOk | src/pages/SubmitIncident.js:224-234 | there are always between two and six poll options |
| SubmitIncident.MountGuide | src/pages/SubmitIncident.js:181-186 | the guidance dialog shows exactly when it was not dismissed for good |
| SubmitIncident.StartPosting | src/pages/SubmitIncident.js:214-216 | "Start Posting" closes the dialog and stores nothing |
| SubmitIncident.DontShowAgain | src/pages/SubmitIncident.js:219-222 | "Don't Show Again" closes the dialog and records the choice |
| SubmitIncident.GuideShownUntilDismissedForGood | src/pages/SubmitIncident.js:181-222 | after "Don't Show Again" the dialog never returns; after "Start Posting" it returns on the next visit |
| KnowledgeBase.CategoryParam | src/pages/KnowledgeBase.js:20-24 | a category is sent exactly when one other than `all` is chosen |
| KnowledgeBase.Load | src/pages/KnowledgeBase.js:16-42 | the chosen category is requested; success adopts the articles, failure shows the error |
| KnowledgeBase.LoadAsWritten | src/pages/KnowledgeBase.js:26-38 | as written the effect may also see an exception, which it shows, keeping the list |
| KnowledgeBase.AsWrittenArticlesNeverArrive | src/pages/KnowledgeBase.js:26 | as written no article ever arrives and an error is always shown |
| KnowledgeBase.Shown | src/pages/KnowledgeBase.js:49-52 | the shown articles are exactly those whose title or content contains the search text, case-insensitively |
| KnowledgeBase.ShownLaws | src/pages/KnowledgeBase.js:49-52 | the list keeps order, an empty search shows every article with a title or content, and a match is an occurrence in title or content |
| KnowledgeBase.SearchIgnoresCase | src/pages/KnowledgeBase.js:50-51 | the case of the search text does not change what is shown |
| KnowledgeBaseDetail.Load | src/pages/KnowledgeBaseDetail.js:18-35 | success adopts the article (possibly none), failure shows the error |
| KnowledgeBaseDetail.LoadAsWritten | src/pages/KnowledgeBaseDetail.js:19-35 | as written the effect may also see an exception, which it shows |
| KnowledgeBaseDetail.Paragraphs | src/pages/KnowledgeBaseDetail.js:80 | there is at least one paragraph and none holds a newline |
| KnowledgeBaseDetail.ParagraphsAreLines | src/pages/KnowledgeBaseDetail.js:80 | the paragraphs joined with newlines give back the content, number one more than its newlines, and split back from their join |
| KnowledgeBaseDetail.Render | src/pages/KnowledgeBaseDetail.js:61-121 | spinner while loading, then an error, then the article card or "not found"; the card shows the content's lines and admin controls exactly for an admin |
| KnowledgeBaseDetail.ShowsAdminControls | src/pages/KnowledgeBaseDetail.js:85 | the admin controls show exactly for a signed-in user whose role is `admin` |
| KnowledgeBaseDetail.AdminOnlyControls | src/pages/KnowledgeBaseDetail.js:85 | only an administrator sees the edit and delete controls, and a card shows all of its content |
| KnowledgeBaseDetail.Delete | src/pages/KnowledgeBaseDetail.js:98-110 | nothing happens unless confirmed; success returns to the list, failure alerts |
| KnowledgeBaseDetail.DeleteAsWritten | src/pages/KnowledgeBaseDetail.js:98-110 | as written a confirmed deletion may also see an exception, which it alerts without navigating |
| KnowledgeBaseDetail.AsWrittenNeverShowsArticle | src/pages/KnowledgeBaseDetail.js:22-101 | as written the page only ever shows an error once loaded, and a confirmed deletion never leaves the page |
| Text.BlankIffAllWhite | src/components/Header.js:13 | a string trims to empty exactly when all its characters are whitespace |
| Text.TrimIdempotent | src/pages/SubmitIncident.js:197 | trimming a trimmed string changes nothing |
| Text.ContainsIffOccurs | src/pages/KnowledgeBase.js:50-51 | `includes` holds exactly when the term occurs at some position |
| Text.SplitJoin | src/pages/KnowledgeBaseDetail.js:80 | joining the pieces of a split with the separator gives back the string |
| Text.SplitOfJoin | src/pages/KnowledgeBaseDetail.js:80 | splitting a join of separator-free pieces gives back the pieces |
| Seqs.FilterIsSubsequence | src/pages/IncidentsList.js:74-111 | a filtered list is an in-order sub-list of the original |
| Seqs.FilterSplit | src/pages/MyQueries.js:451-460 | filtering by either of two exclusive tests keeps as many items as the two filters together |

## Left out

- Rendering (JSX, Bootstrap markup, icons, dates, `toLocaleString`) is not modelled beyond the branches that decide what is shown.
- The HTTP transport, `fetch`, `axios` and the base URL are not modelled: a server's answer is an input, and only the route table and the error mapping are.
- Timers are explicit steps: the toast's five-second removal is a later `RemoveToast`, and the dashboard's one-second delay is `Dashboard.Tick`. Neither page clears its timer on unmount, and the model has no unmount.
- Concurrency between overlapping requests is not modelled; each handler sees its own answer.
- `encodeURIComponent` is a parameter, and lower-casing covers ASCII letters only.
- `Text.Trim` uses a fixed set of whitespace code points.
- A `catch (err)` branch is modelled only where a call can throw, which is for wrapper names the API module does not define. Every defined wrapper catches its own errors, and a response is taken to be a well-formed envelope.
- The `/auth/google` fetch of the sign-in and sign-up pages is the `GoogleReply` input.
- `JSON.stringify` and `JSON.parse` of the stored user are taken as inverse: storage keeps the user value itself.
- The comment and poll modals of the public list are not modelled: they are declared but never opened. Neither are avatar upload, the avatar picker, the form's input handlers and tab switching on the profile page, the issue form's step buttons, and `handleTagsContainerClick` (focus only).
- The static pages (pricing, legal, landing, billing, moderation, SLA, tags), `App.js`'s route table, the footer, the spinner and the debug component are not part of this model.
- Feed.AdoptVotedOption: a server `userVotedOption` of `null` is read as no vote, so the post is left as it is. The source adopts anything other than `undefined`, so for `null` it sets `selectedOption` to `null`. The Remove Vote button and the result bars then show for a poll the user never voted in.
- Dashboard.AtMostOneAnnouncementPerSession: visits are taken one after another, each timer firing before the next mount. The timer is never cleared, so a second visit that mounts before the first timer fires reads the flag unset too, and the load is announced twice (`Dashboard.OverlappingVisitsAnnounceTwice`).
- A comment without `replies` has an empty list.
- UserProfile.UpdateProfile: when the returned user has no avatar, the form's avatar becomes empty rather than `undefined`.
- SubmitIncident.OptionChange: requires an index inside the list, because the page only renders inputs for existing options.
- Header.AvatarInitial: upper-casing covers ASCII letters only and the initial is one code point, whereas `toUpperCase` also maps other letters (`é` to `É`) and may lengthen one (`ß` to `SS`), and `charAt(0)` of a name starting outside the Basic Multilingual Plane is half a surrogate pair.
- Entities.UserPathSegment: an `id` that is `null` rather than missing would put `null` in the path; the two are not distinguished.
- LoginPage.GoogleCallback: a successful reply without a token stores the empty string, whereas `localStorage.setItem('token', undefined)` stores the text `undefined`, which is truthy, so the interceptor would then send `Bearer undefined`. The same holds for the sign-up page.
- UserProfile.Effect: the effect's `setLoading(true)` before the request is not kept, since only the state after the answer is modelled.
- KnowledgeBase.Load, KnowledgeBaseDetail.Load, KnowledgeBaseDetail.Delete and IncidentDetail.Submit: these describe the handlers with the wrappers they call defined; the code as written is modelled by the `AsWritten` members (see Findings).

## Findings

| source | as written | input that shows it | evidently intended | confidence | as-written member | corrected member |
|---|---|---|---|---|---|---|
| src/pages/Login.js:17-53 | the Google callback takes `setCurrentUser` from the session context, which does not export it, so the guarded call never runs | a signed-out visitor completes Google sign-in with a successful reply | the session adopts the returned user, and the dashboard opens | not executed | LoginPage.GoogleSignInBouncesToLogin | LoginPage.CorrectedGoogleSignInReachesDashboard |
| src/pages/KnowledgeBase.js:26 | the page calls `api.knowledgeBase.getAll`, but the API module's `knowledgeBase` defines only `getArticles` and `getArticleById`, so the call throws | opening the knowledge base with any category and any server state | the articles of the chosen category are listed | not executed | KnowledgeBase.AsWrittenArticlesNeverArrive | KnowledgeBase.Load |
| src/pages/KnowledgeBaseDetail.js:22,101 | the page calls `api.knowledgeBase.getById` and `api.knowledgeBase.delete`, neither of which is defined, so both calls throw | opening any article, or confirming its deletion | the article is shown, and a confirmed deletion returns to the list | not executed | KnowledgeBaseDetail.AsWrittenNeverShowsArticle | KnowledgeBaseDetail.AdminOnlyControls |
| src/pages/IncidentDetail.js:55 | the page calls `api.comments.create`, but the `api` object has no `comments` member, so the call throws | submitting any non-blank comment or reply | the comment is created and appended | not executed | IncidentDetail.AsWrittenCommentsNeverPost | IncidentDetail.ReplyJoinsList |

=== FILE: api.dfy ===
/** The HTTP client layer (src/services/api.js): the bearer-token request
    interceptor, the error-to-envelope mapping, the endpoint table and the
    never-throwing wrappers. The network itself is an input: a call either
    delivers the server's envelope or is rejected with an `ApiError`. */
module Api {
  import opened Wrappers
  import opened Text
  import opened Entities
  import opened Storage

  /** The uniform `{success, data | message}` envelope the pages branch on. */
  datatype Response<+T> = Success(data: T) | Failure(message: Option<string>)

  /** The body of an error response. */
  datatype ErrorBody = ErrorBody(message: Option<string>)

  /** What the HTTP client rejects with: the server answered outside 2xx,
      no answer arrived, or the request could not be set up. */
  datatype ApiError =
    | Responded(status: int, body: ErrorBody)
    | NoResponse
    | SetupError(detail: string)

  /** The standardised error object built by `handleApiError`. */
  datatype ErrorEnvelope = ErrorEnvelope(success: bool, message: string, status: Option<int>, data: Option<ErrorBody>)

  const DefaultErrorMessage: string := "An error occurred while connecting to the server"
  const NoResponseMessage: string := "No response received from server"

  /** `handleApiError`. */
  function HandleApiError(e: ApiError): (r: ErrorEnvelope)
    ensures !r.success
    ensures r.message != ""
    ensures e.Responded? ==>
      && r.message == OrElse(e.body.message, DefaultErrorMessage)
      && r.status == Some(e.status) && r.data == Some(e.body)
    ensures e.NoResponse? ==> r.message == NoResponseMessage && r.status.None? && r.data.None?
    ensures e.SetupError? ==> r.message == DefaultErrorMessage && r.status.None? && r.data.None?
  {
    match e
    case Responded(status, body) =>
      ErrorEnvelope(false, OrElse(body.message, DefaultErrorMessage), Some(status), Some(body))
    case NoResponse =>
      ErrorEnvelope(false, NoResponseMessage, None, None)
    case SetupError(_) =>
      ErrorEnvelope(false, DefaultErrorMessage, None, None)
  }

  /** How one request ended on the wire. */
  datatype Transport<+T> = Delivered(body: Response<T>) | Raised(error: ApiError)

  /** Every endpoint wrapper: `try { return (await call).data } catch (e)
      { return handleApiError(e) }`. It is total, so it never throws. */
  function Invoke<T>(t: Transport<T>): (r: Response<T>)
    ensures t.Delivered? ==> r == t.body
    ensures t.Raised? ==> r.Failure? && r.message == Some(HandleApiError(t.error).message)
  {
    match t
    case Delivered(body) => body
    case Raised(e) => Failure(Some(HandleApiError(e).message))
  }

  /** A rejected call always reaches the page with a non-empty message, so
      a page's own fallback text (`response.message || fallback`) is only
      ever shown for failures the server reported without a message. */
  lemma RaisedNeverUsesFallback<T>(e: ApiError, fallback: string)
    ensures Invoke<T>(Raised(e)).Failure?
    ensures OrElse(Invoke<T>(Raised(e)).message, fallback) == HandleApiError(e).message
  {
  }

  /** Request headers. */
  type Headers = map<string, string>

  const AuthorizationHeader: string := "Authorization"
  const BearerPrefix: string := "Bearer "

  /** The request interceptor: attach the stored token as a bearer
      credential when there is one, otherwise leave the headers alone. */
  function Intercept(store: Store, h: Headers): (r: Headers)
    ensures GetText(store, "token").None? ==> r == h
    ensures GetText(store, "token").Some? ==>
      && AuthorizationHeader in r
      && r[AuthorizationHeader] == BearerPrefix + GetText(store, "token").value
    ensures forall k :: k in h && k != AuthorizationHeader ==> k in r && r[k] == h[k]
    ensures r.Keys <= h.Keys + {AuthorizationHeader}
  {
    match GetText(store, "token")
    case Some(token) => h[AuthorizationHeader := BearerPrefix + token]
    case None => h
  }

  /** Reads the credential back out of an `Authorization` value of the form
      `Bearer <token>` (section 2.1 of RFC 6750). */
  function BearerCredential(value: string): (r: Option<string>)
    ensures r.Some? ==> value == BearerPrefix + r.value && r.value != ""
  {
    if IsPrefix(BearerPrefix, value) && |value| > |BearerPrefix|
    then
      assert value == BearerPrefix + value[|BearerPrefix|..];
      Some(value[|BearerPrefix|..])
    else None
  }

  /** The credential attached by the interceptor is exactly the stored
      token, and a request without a stored token carries whatever
      `Authorization` header it already had. */
  lemma InterceptCarriesStoredToken(store: Store, h: Headers)
    ensures GetText(store, "token").Some? ==>
      BearerCredential(Intercept(store, h)[AuthorizationHeader]) == GetText(store, "token")
    ensures GetText(store, "token").None? ==>
      (AuthorizationHeader in Intercept(store, h) <==> AuthorizationHeader in h)
  {
    if GetText(store, "token").Some? {
      var t := GetText(store, "token").value;
      var v := BearerPrefix + t;
      assert v[..|BearerPrefix|] == BearerPrefix;
      assert v[|BearerPrefix|..] == t;
    }
  }

  datatype Method = GET | POST | PUT | DELETE

  /** An HTTP method and a path relative to the base URL. */
  datatype Route = Route(verb: Method, path: string)

  /** Every request a page can issue, with the data the page sends. The last
      four are called by pages under names that the API module does not
      define; they have no route. */
  datatype Call =
    | AuthLogin
    | AuthRegister
    | AuthMe
    | ListArticlesAll
    | ArticleById(articleId: string)
    | ListIncidents
    | GetIncident(id: string)
    | CreateIncident(payload: Payload)
    | Upvote(id: string)
    | Vote(id: string, optionIndex: int)
    | RemoveVote(id: string)
    | UserIncidents(userId: string)
    | GetComments(id: string)
    | AddComment(id: string, text: string)
    | AddReply(id: string, commentId: string, text: string)
    | UpdateProfile(profile: Profile)
    | UploadAvatar
    | UpdatePassword(currentPassword: string, newPassword: string)
    | DeleteAccount
    | CreateFlatComment(incident: string, content: string, parentComment: Option<string>)
    | ListArticles(category: Option<string>)
    | GetArticle(articleId: string)
    | DeleteArticle(articleId: string)

  /** A page handler's result: the page's next state and the request it
      issued, if any. When a request is issued, the next state is the one
      after its response was handled. */
  datatype Handled<+S> = Handled(state: S, call: Option<Call>)

  /** The calls the API module does not define. */
  predicate Undefined(c: Call) {
    c.CreateFlatComment? || c.ListArticles? || c.GetArticle? || c.DeleteArticle?
  }

  /** What awaiting a page's request gives the page: the envelope a wrapper
      returned, or the exception raised by calling a wrapper the API module
      does not define (a `TypeError`, whose message the runtime supplies). */
  datatype Answer<+T> = Returned(body: Response<T>) | Threw(message: Option<string>)

  /** Issuing `c` through the `api` object: a defined wrapper never throws
      and hands over what the transport delivered; an undefined one throws
      before any request leaves. */
  function Perform<T>(c: Call, t: Transport<T>, typeError: Option<string>): (r: Answer<T>)
    ensures r.Threw? <==> Undefined(c)
    ensures r.Returned? ==> r.body == Invoke(t)
  {
    if Undefined(c) then Threw(typeError) else Returned(Invoke(t))
  }

  const CaughtFallback: string := "An error occurred"

  /** What a page's `catch (err)` shows: `err.message || 'An error occurred'`. */
  function Caught(thrown: Option<string>): (r: string)
    ensures r != ""
    ensures Truthy(thrown) ==> r == thrown.value
  {
    OrElse(thrown, CaughtFallback)
  }

  /** The endpoint table of the API module. */
  function Endpoint(c: Call): (r: Option<Route>)
    ensures r.None? <==> Undefined(c)
  {
    match c
    case AuthLogin => Some(Route(POST, "/auth/login"))
    case AuthRegister => Some(Route(POST, "/auth/register"))
    case AuthMe => Some(Route(GET, "/api/auth/me"))
    case ListArticlesAll => Some(Route(GET, "/api/knowledge-base/articles"))
    case ArticleById(id) => Some(Route(GET, "/api/knowledge-base/articles/" + id))
    case ListIncidents => Some(Route(GET, "/incidents"))
    case GetIncident(id) => Some(Route(GET, "/incidents/" + id))
    case CreateIncident(_) => Some(Route(POST, "/incidents"))
    case Upvote(id) => Some(Route(POST, "/incidents/" + id + "/upvote"))
    case Vote(id, _) => Some(Route(POST, "/incidents/" + id + "/vote"))
    case RemoveVote(id) => Some(Route(DELETE, "/incidents/" + id + "/vote"))
    case UserIncidents(uid) => Some(Route(GET, "/incidents/user/" + uid))
    case GetComments(id) => Some(Route(GET, "/incidents/" + id + "/comments"))
    case AddComment(id, _) => Some(Route(POST, "/incidents/" + id + "/comments"))
    case AddReply(id, cid, _) => Some(Route(POST, "/incidents/" + id + "/comments/" + cid + "/replies"))
    case UpdateProfile(_) => Some(Route(PUT, "/api/auth/profile"))
    case UploadAvatar => Some(Route(POST, "/api/users/upload-avatar"))
    case UpdatePassword(_, _) => Some(Route(PUT, "/api/users/password"))
    case DeleteAccount => Some(Route(DELETE, "/api/users/account"))
    case CreateFlatComment(_, _, _) => None
    case ListArticles(_) => None
    case GetArticle(_) => None
    case DeleteArticle(_) => None
  }

  /** The reply endpoint nests the comment under its post: splitting its path
      on `/` gives back both identifiers (when neither contains `/`), so two
      different (post, comment) pairs never share a reply path. */
  lemma ReplyPathSegments(id: string, commentId: string, text: string)
    requires '/' !in id && '/' !in commentId
    ensures Endpoint(AddReply(id, commentId, text)).Some?
    ensures Endpoint(AddReply(id, commentId, text)).value.verb == POST
    ensures Split(Endpoint(AddReply(id, commentId, text)).value.path, '/')
      == ["", "incidents", id, "comments", commentId, "replies"]
  {
    var parts := ["", "incidents", id, "comments", commentId, "replies"];
    JoinPath(id, commentId);
    SplitOfJoin(parts, '/');
  }

  /** The reply path is its six segments joined with `/`. */
  lemma JoinPath(id: string, commentId: string)
    ensures "/incidents/" + id + "/comments/" + commentId + "/replies"
      == Join(["", "incidents", id, "comments", commentId, "replies"], '/')
  {
    var parts := ["", "incidents", id, "comments", commentId, "replies"];
    assert Join(parts[5..], '/') == "replies";
    assert Join(parts[4..], '/') == commentId + "/replies";
    assert Join(parts[3..], '/') == "comments/" + commentId + "/replies";
    assert Join(parts[2..], '/') == id + "/comments/" + commentId + "/replies";
    assert Join(parts[1..], '/') == "incidents/" + id + "/comments/" + commentId + "/replies";
  }
}

=== FILE: auth.dfy ===
/** The session provider (src/contexts/AuthContext.js): the current user,
    its persisted copy under `'user'`, the token under `'token'`, and the
    hydrate, login, register, logout and profile-update transitions. The
    auth server's answer is an input. */
module Auth {
  import opened Wrappers
  import opened Text
  import opened Entities
  import opened Storage

  const TokenKey: string := "token"
  const UserKeyName: string := "user"
  const LoginFailed: string := "Login failed"
  const RegistrationFailed: string := "Registration failed"

  /** Provider state: durable storage, the in-memory user, and whether the
      hydrate step is still pending. */
  datatype AuthState = AuthState(store: Store, currentUser: Option<User>, loading: bool)

  /** The provider as first rendered: no user, children withheld. */
  function Mount(store: Store): (s: AuthState)
    ensures s.store == store && s.currentUser.None? && s.loading
  {
    AuthState(store, None, true)
  }

  /** The mount effect: adopt the persisted user if there is one, then stop
      loading. Storage is only read. */
  function Hydrate(s: AuthState): (r: AuthState)
    ensures r.store == s.store && !r.loading
    ensures GetUser(s.store, UserKeyName).Some? ==> r.currentUser == GetUser(s.store, UserKeyName)
    ensures GetUser(s.store, UserKeyName).None? ==> r.currentUser == s.currentUser
  {
    match GetUser(s.store, UserKeyName)
    case Some(u) => s.(currentUser := Some(u), loading := false)
    case None => s.(loading := false)
  }

  /** The provider renders its children only once hydration is done. */
  predicate RendersChildren(s: AuthState) {
    !s.loading
  }

  /** Starting the application: mount then hydrate. The session holds the
      persisted user, or nobody, and the children are rendered. */
  lemma StartupRestoresPersistedUser(store: Store)
    ensures Hydrate(Mount(store)).currentUser == GetUser(store, UserKeyName)
    ensures RendersChildren(Hydrate(Mount(store))) && !RendersChildren(Mount(store))
  {
  }

  /** What the auth server answered: a non-2xx status comes with an
      optional message; a transport failure rejects with its own message. */
  datatype AuthReply =
    | Accepted(token: string, user: User)
    | Rejected(message: Option<string>)
    | Unreachable(reason: string)

  /** A transition that may throw: the new state and the returned user or
      the thrown error's message. */
  datatype AuthOutcome = AuthOutcome(state: AuthState, result: Result<User, string>)

  /** Shared tail of `login` and `register`: persist token and user, then
      adopt the user; on a non-OK status throw the server message or
      `fallback`; on a transport failure rethrow. */
  function Authenticate(s: AuthState, reply: AuthReply, fallback: string): (r: AuthOutcome)
    ensures reply.Accepted? ==>
      && r.result == Ok(reply.user)
      && r.state.currentUser == Some(reply.user)
      && r.state.store == s.store[TokenKey := Text(reply.token)][UserKeyName := Json(reply.user)]
      && r.state.loading == s.loading
    ensures reply.Rejected? ==> r.state == s && r.result == Err(OrElse(reply.message, fallback))
    ensures reply.Unreachable? ==> r.state == s && r.result == Err(reply.reason)
  {
    match reply
    case Accepted(token, user) =>
      var store := s.store[TokenKey := Text(token)][UserKeyName := Json(user)];
      AuthOutcome(s.(store := store, currentUser := Some(user)), Ok(user))
    case Rejected(m) => AuthOutcome(s, Err(OrElse(m, fallback)))
    case Unreachable(m) => AuthOutcome(s, Err(m))
  }

  /** `login(email, password)`. */
  function Login(s: AuthState, reply: AuthReply): (r: AuthOutcome)
    ensures r.result.Ok? <==> reply.Accepted?
    ensures reply.Rejected? ==> r.state == s && r.result == Err(OrElse(reply.message, LoginFailed))
    ensures r.result.Err? ==> r.state == s
  {
    Authenticate(s, reply, LoginFailed)
  }

  /** The request body `register` sends. */
  datatype RegisterBody = RegisterBody(email: string, password: string, name: string)

  /** `email.split('@')[0]`. */
  function EmailPrefix(email: string): string {
    Split(email, '@')[0]
  }

  /** The part of an address before its first `@` is a prefix of the address
      without `@`, and it is followed by `@` unless it is the whole address. */
  lemma {:induction false} EmailPrefixIsLocalPart(email: string)
    ensures IsPrefix(EmailPrefix(email), email)
    ensures '@' !in EmailPrefix(email)
    ensures '@' in email ==> |EmailPrefix(email)| < |email| && email[|EmailPrefix(email)|] == '@'
    ensures '@' !in email ==> EmailPrefix(email) == email
  {
    if |email| > 0 {
      EmailPrefixIsLocalPart(email[1..]);
      if email[0] != '@' {
        assert EmailPrefix(email) == [email[0]] + EmailPrefix(email[1..]);
      }
    }
  }

  /** `name || email.split('@')[0]`. */
  function RegisterName(email: string, name: Option<string>): (r: string)
    ensures Truthy(name) ==> r == name.value
    ensures !Truthy(name) ==> r == EmailPrefix(email)
  {
    OrElse(name, EmailPrefix(email))
  }

  /** `register(email, password, name)`: the body sent and the outcome. */
  datatype Registration = Registration(body: RegisterBody, outcome: AuthOutcome)

  function Register(s: AuthState, email: string, password: string, name: Option<string>, reply: AuthReply): (r: Registration)
    ensures r.body.email == email && r.body.password == password
    ensures !Truthy(name) ==> '@' !in r.body.name && IsPrefix(r.body.name, email)
    ensures r.outcome.result.Ok? <==> reply.Accepted?
    ensures reply.Rejected? ==> r.outcome.result == Err(OrElse(reply.message, RegistrationFailed))
    ensures r.outcome.result.Err? ==> r.outcome.state == s
  {
    EmailPrefixIsLocalPart(email);
    Registration(RegisterBody(email, password, RegisterName(email, name)), Authenticate(s, reply, RegistrationFailed))
  }

  /** `logout()`: forget the persisted and the in-memory user. */
  function Logout(s: AuthState): (r: AuthState)
    ensures r.currentUser.None? && UserKeyName !in r.store
    ensures forall k :: k != UserKeyName ==> (k in r.store <==> k in s.store)
    ensures forall k :: k in r.store ==> r.store[k] == s.store[k]
    ensures r.loading == s.loading
  {
    s.(store := s.store - {UserKeyName}, currentUser := None)
  }

  /** Logging out leaves the token in storage: requests made afterwards
      still carry it. */
  lemma LogoutKeepsToken(s: AuthState)
    ensures GetText(Logout(s).store, TokenKey) == GetText(s.store, TokenKey)
    ensures Present(Logout(s).store, TokenKey) <==> Present(s.store, TokenKey)
  {
  }

  /** `updateUserProfile(u)`: replace the user wholesale, in memory and in
      storage. */
  function UpdateUserProfile(s: AuthState, u: User): (r: AuthState)
    ensures r.currentUser == Some(u) && r.loading == s.loading
    ensures GetUser(r.store, UserKeyName) == Some(u)
    ensures forall k :: k != UserKeyName && k in s.store ==> k in r.store && r.store[k] == s.store[k]
  {
    s.(store := s.store[UserKeyName := Json(u)], currentUser := Some(u))
  }

  /** Whatever the session did last (a successful login or register, a
      logout, a profile update), a fresh start restores the same user it had
      in memory: storage and memory agree. */
  lemma PersistedUserMatchesMemory(s: AuthState, u: User, reply: AuthReply, email: string, password: string, name: Option<string>)
    ensures Hydrate(Mount(UpdateUserProfile(s, u).store)).currentUser == UpdateUserProfile(s, u).currentUser
    ensures Hydrate(Mount(Logout(s).store)).currentUser == Logout(s).currentUser
    ensures Login(s, reply).result.Ok? ==>
      Hydrate(Mount(Login(s, reply).state.store)).currentUser == Login(s, reply).state.currentUser
    ensures Register(s, email, password, name, reply).outcome.result.Ok? ==>
      var st := Register(s, email, password, name, reply).outcome.state;
      Hydrate(Mount(st.store)).currentUser == st.currentUser
  {
  }

  /** The names the provider puts in its context value. */
  const Exported: set<string> := {"currentUser", "login", "register", "logout", "updateUserProfile"}

  /** Whether destructuring `name` from the context yields a defined value. */
  predicate Provides(name: string) {
    name in Exported
  }
}

=== FILE: dashboard.dfy ===
/** The dashboard's load step (src/pages/Dashboard.js). The one-second
    timer is an explicit `Tick`; the session flag lives in session
    storage, the toast goes to the notification queue. */
module Dashboard {
  import opened Wrappers
  import opened Storage
  import opened Toasts

  const FlagKey: string := "dashboardNotificationShown"
  const LoadedMessage: string := "Dashboard data loaded successfully"

  /** The page as mounted: still loading, and whether the flag was set
      when it mounted. */
  datatype Page = Page(loading: bool, alreadyShown: bool)

  function Mount(session: Store): (p: Page)
    ensures p.loading
    ensures p.alreadyShown <==> Present(session, FlagKey)
  {
    Page(true, Present(session, FlagKey))
  }

  /** After the timer fired: the page, session storage and the toast queue. */
  datatype Ticked = Ticked(page: Page, session: Store, toasts: seq<Toast>)

  /** The timer: stop loading; unless the flag was seen at mount, announce
      the load and set the flag. */
  function Tick(p: Page, session: Store, q: seq<Toast>, now: int): (r: Ticked)
    ensures !r.page.loading
    ensures p.alreadyShown ==> r.session == session && r.toasts == q
    ensures !p.alreadyShown ==>
      && |r.toasts| == |q| + 1 && r.toasts[..|q|] == q
      && r.toasts[|q|].message == LoadedMessage && r.toasts[|q|].kind == DefaultKind
      && r.session == session[FlagKey := Text("true")]
      && Present(r.session, FlagKey)
  {
    if p.alreadyShown then Ticked(p.(loading := false), session, q)
    else Ticked(p.(loading := false), session[FlagKey := Text("true")], AddToast(q, now, LoadedMessage, None, None).toasts)
  }

  /** One visit: mount, then the timer fires at `now`. */
  function Visit(session: Store, q: seq<Toast>, now: int): (r: Ticked)
    ensures Present(r.session, FlagKey)
  {
    Tick(Mount(session), session, q, now)
  }

  /** Visits in a row, one per clock reading. */
  function Visits(session: Store, q: seq<Toast>, clocks: seq<int>): Ticked
    decreases |clocks|
  {
    if |clocks| == 0 then Ticked(Page(false, Present(session, FlagKey)), session, q)
    else
      var v := Visit(session, q, clocks[0]);
      Visits(v.session, v.toasts, clocks[1..])
  }

  /** However often the dashboard is opened in one session, it announces
      itself once at most: exactly once if the flag was not yet set and
      there was at least one visit, never otherwise. */
  lemma {:induction false} AtMostOneAnnouncementPerSession(session: Store, q: seq<Toast>, clocks: seq<int>)
    ensures |Visits(session, q, clocks).toasts|
      == |q| + (if |clocks| > 0 && !Present(session, FlagKey) then 1 else 0)
    ensures Visits(session, q, clocks).toasts[..|q|] == q
    decreases |clocks|
  {
    if |clocks| > 0 {
      var v := Visit(session, q, clocks[0]);
      AtMostOneAnnouncementPerSession(v.session, v.toasts, clocks[1..]);
      assert v.toasts[..|q|] == q;
      var w := Visits(v.session, v.toasts, clocks[1..]);
      assert w.toasts[..|q|] == w.toasts[..|v.toasts|][..|q|];
    }
  }

  /** The timer is never cleared, so two visits that overlap both read the
      flag unset at mount and both announce: when the second mount comes
      before the first timer fires, two toasts are queued. */
  lemma OverlappingVisitsAnnounceTwice(session: Store, q: seq<Toast>, now1: int, now2: int)
    requires !Present(session, FlagKey)
    ensures var first := Mount(session);
      var second := Mount(session);
      var t1 := Tick(first, session, q, now1);
      var t2 := Tick(second, t1.session, t1.toasts, now2);
      && |t2.toasts| == |q| + 2
      && t2.toasts[|q|].message == LoadedMessage && t2.toasts[|q| + 1].message == LoadedMessage
  {
  }
}

=== FILE: entities.dfy ===
/** The records the front-end receives from the server and keeps in page
    state. Every field the source reads with `x && ...`, `x || d` or `?.` is
    optional here. */
module Entities {
  import opened Wrappers
  import opened Text

  /** The signed-in user as returned by the auth endpoints and kept in the
      session. `uid` is the server's `_id`, `altId` its `id`. */
  datatype User = User(
    uid: Option<string>,
    altId: Option<string>,
    name: Option<string>,
    email: Option<string>,
    role: Option<string>,
    avatar: Option<string>,
    bio: Option<string>,
    company: Option<string>,
    location: Option<string>,
    website: Option<string>)

  /** `user._id || user.id`: the identifier used in user-scoped requests. */
  function UserKey(u: User): (r: Option<string>)
    ensures r.Some? <==> Truthy(u.uid) || Truthy(u.altId)
    ensures Truthy(u.uid) ==> r == u.uid
    ensures r.Some? ==> r.value != ""
  {
    if Truthy(u.uid) then u.uid else if Truthy(u.altId) then u.altId else None
  }

  /** The user's segment of a user-scoped request path: `_id || id`
      interpolated into a template, so a missing `id` reads `undefined` and
      an empty one leaves the segment empty. */
  function UserPathSegment(u: User): (r: string)
    ensures UserKey(u).Some? ==> r == UserKey(u).value
    ensures UserKey(u).None? ==> (r == "" <==> u.altId == Some(""))
    ensures UserKey(u).None? && u.altId != Some("") ==> r == "undefined"
  {
    if Truthy(u.uid) then u.uid.value else u.altId.GetOr("undefined")
  }

  /** The author reference embedded in posts, comments and replies. */
  datatype UserRef = UserRef(name: Option<string>)

  /** One poll option; a missing vote count reads as 0. */
  datatype PollOption = PollOption(text: string, votes: Option<nat>)

  /** A comment of a post as the post-list pages hold it, with one level of
      replies (a reply has no replies of its own). */
  datatype Comment = Comment(id: string, text: string, author: Option<UserRef>, replies: seq<Reply>)
  datatype Reply = Reply(id: string, text: string, author: Option<UserRef>)

  /** A comment as the post detail page holds it: flat, with an optional
      parent comment id. */
  datatype FlatComment = FlatComment(id: string, content: string, parentComment: Option<string>)

  /** A post of any of the five kinds (`type` in the source: question, issue,
      poll, news, other). Poll-only, issue-only and question-only fields are
      simply absent on the other kinds. */
  datatype Post = Post(
    id: string,
    kind: string,
    title: Option<string>,
    description: Option<string>,
    provider: Option<string>,
    service: Option<string>,
    tags: Option<seq<string>>,
    author: Option<UserRef>,
    status: Option<string>,
    votes: Option<nat>,
    hasVoted: bool,
    options: seq<PollOption>,
    selectedOption: Option<int>,
    userVotedOption: Option<int>,
    comments: Option<seq<FlatComment>>)

  /** A knowledge-base article. */
  datatype Article = Article(id: string, title: Option<string>, content: Option<string>, category: Option<string>)

  /** The body of a post-creation request. Fields that only one kind sends
      are grouped and absent for the other kinds. */
  datatype Payload = Payload(
    kind: string,
    provider: string,
    tags: seq<string>,
    title: string,
    description: Option<string>,
    poll: Option<PollFields>,
    issue: Option<IssueFields>,
    news: Option<NewsFields>)

  datatype PollFields = PollFields(question: string, options: seq<string>, duration: string)
  datatype IssueFields = IssueFields(
    timestamp: string, service: string, urgency: string,
    components: string, category: string, region: string)
  datatype NewsFields = NewsFields(newsDate: string, sourceUrl: string, excerpt: string)

  /** The profile form's fields, also the body of a profile update. */
  datatype Profile = Profile(
    name: string, email: string, bio: string, company: string,
    location: string, website: string, avatar: string)
}

=== FILE: feed.dfy ===
/** The post list as the feed pages hold it (src/pages/IncidentsList.js):
    the load-time poll adjustment, replacing the one post with a given id,
    and the type-and-text filter. */
module Feed {
  import opened Wrappers
  import opened Text
  import opened Entities
  import opened Seqs

  const AllKinds: string := "all"

  /** The load step's per-post adjustment: a poll the user has voted in
      shows that option as selected. */
  function AdoptVotedOption(p: Post): (r: Post)
    ensures p.kind == "poll" && p.userVotedOption.Some? ==> r == p.(selectedOption := p.userVotedOption)
    ensures !(p.kind == "poll" && p.userVotedOption.Some?) ==> r == p
  {
    if p.kind == "poll" && p.userVotedOption.Some? then p.(selectedOption := p.userVotedOption) else p
  }

  /** The loaded list: every post adjusted, in the order received. */
  function LoadPosts(data: seq<Post>): (r: seq<Post>)
    ensures |r| == |data|
    ensures forall i :: 0 <= i < |data| ==> r[i] == AdoptVotedOption(data[i])
  {
    seq(|data|, i requires 0 <= i < |data| => AdoptVotedOption(data[i]))
  }

  /** After loading, every poll with a recorded vote shows it as selected,
      and only the selected option of such polls differs from what was
      received. Loading twice is loading once. */
  lemma LoadPostsLaws(data: seq<Post>)
    ensures forall i :: 0 <= i < |data| && data[i].kind == "poll" && data[i].userVotedOption.Some? ==>
      LoadPosts(data)[i].selectedOption == data[i].userVotedOption
    ensures forall i :: 0 <= i < |data| ==>
      LoadPosts(data)[i].(selectedOption := data[i].selectedOption) == data[i]
    ensures LoadPosts(LoadPosts(data)) == LoadPosts(data)
  {
  }

  /** `posts.map(p => p._id === id ? f(p) : p)`. */
  function UpdateById(posts: seq<Post>, id: string, f: Post -> Post): (r: seq<Post>)
    ensures |r| == |posts|
    ensures forall i :: 0 <= i < |posts| && posts[i].id != id ==> r[i] == posts[i]
    ensures forall i :: 0 <= i < |posts| && posts[i].id == id ==> r[i] == f(posts[i])
  {
    seq(|posts|, i requires 0 <= i < |posts| => if posts[i].id == id then f(posts[i]) else posts[i])
  }

  /** Updating an id no post carries changes nothing. */
  lemma UpdateAbsentId(posts: seq<Post>, id: string, f: Post -> Post)
    requires forall i :: 0 <= i < |posts| ==> posts[i].id != id
    ensures UpdateById(posts, id, f) == posts
  {
  }

  /** `posts.find(p => p._id === id)`: the first post with that id. */
  function FindById(posts: seq<Post>, id: string): (r: Option<Post>)
    ensures r.Some? ==> r.value in posts && r.value.id == id
    ensures r.None? <==> forall i :: 0 <= i < |posts| ==> posts[i].id != id
  {
    if |posts| == 0 then None
    else if posts[0].id == id then Some(posts[0])
    else FindById(posts[1..], id)
  }

  /** `value.toLowerCase().includes(term)` on a field that may be absent. */
  predicate FieldHit(v: Option<string>, term: string) {
    v.Some? && Contains(Lower(v.value), term)
  }

  /** Some tag contains the term. */
  predicate TagHit(tags: Option<seq<string>>, term: string) {
    tags.Some? && exists t :: t in tags.value && Contains(Lower(t), term)
  }

  /** The author's name, if the post has an author with a name. */
  function AuthorName(p: Post): Option<string> {
    if p.author.Some? then p.author.value.name else None
  }

  /** The search test for a non-empty lower-case term: tags, author name,
      provider, title, service. */
  predicate SearchHit(p: Post, term: string) {
    TagHit(p.tags, term) || FieldHit(AuthorName(p), term) || FieldHit(p.provider, term)
    || FieldHit(p.title, term) || FieldHit(p.service, term)
  }

  /** The filter test: the type first, then the text when there is any. */
  function Passes(p: Post, kind: string, search: string): (r: bool)
    ensures r ==> kind == AllKinds || p.kind == kind
    ensures search == "" ==> (r <==> kind == AllKinds || p.kind == kind)
    ensures search != "" ==>
      (r <==> (kind == AllKinds || p.kind == kind) && exists t :: t in Searchable(p) && Contains(Lower(t), Lower(search)))
  {
    SearchHitIffSomeText(p, Lower(search));
    (kind == AllKinds || p.kind == kind) && (search == "" || SearchHit(p, Lower(search)))
  }

  /** `filteredIncidents`. */
  function Visible(posts: seq<Post>, kind: string, search: string): (r: seq<Post>)
    ensures forall p :: p in r <==> p in posts && Passes(p, kind, search)
  {
    Filter(posts, (p: Post) => Passes(p, kind, search))
  }

  /** Every text a search looks at, in one list. */
  function Searchable(p: Post): (r: seq<string>) {
    (if p.tags.Some? then p.tags.value else [])
    + (if AuthorName(p).Some? then [AuthorName(p).value] else [])
    + (if p.provider.Some? then [p.provider.value] else [])
    + (if p.title.Some? then [p.title.value] else [])
    + (if p.service.Some? then [p.service.value] else [])
  }

  /** A post matches a term exactly when one of its searchable texts,
      lower-cased, contains the term. */
  lemma SearchHitIffSomeText(p: Post, term: string)
    ensures SearchHit(p, term) <==> exists t :: t in Searchable(p) && Contains(Lower(t), term)
  {
    var tags := if p.tags.Some? then p.tags.value else [];
    if SearchHit(p, term) {
      if TagHit(p.tags, term) {
        var t :| t in tags && Contains(Lower(t), term);
        assert t in Searchable(p);
      } else if FieldHit(AuthorName(p), term) {
        assert AuthorName(p).value in Searchable(p);
      } else if FieldHit(p.provider, term) {
        assert p.provider.value in Searchable(p);
      } else if FieldHit(p.title, term) {
        assert p.title.value in Searchable(p);
      } else {
        assert p.service.value in Searchable(p);
      }
    }
  }

  /** The list shown is the loaded list with some posts left out, in the
      same order; it is the whole list under 'all' with no search text,
      and a search only narrows what the type filter alone shows. */
  lemma VisibleLaws(posts: seq<Post>, kind: string, search: string)
    ensures IsSubsequence(Visible(posts, kind, search), posts)
    ensures Visible(posts, AllKinds, "") == posts
    ensures |Visible(posts, kind, search)| <= |Visible(posts, kind, "")|
    ensures Visible(posts, kind, "") == Filter(posts, (p: Post) => kind == AllKinds || p.kind == kind)
  {
    FilterIsSubsequence(posts, (p: Post) => Passes(p, kind, search));
    FilterAll(posts, (p: Post) => Passes(p, AllKinds, ""));
    FilterStronger(posts, (p: Post) => Passes(p, kind, search), (p: Post) => Passes(p, kind, ""));
    FilterExtensional(posts, (p: Post) => Passes(p, kind, ""), (p: Post) => kind == AllKinds || p.kind == kind);
  }

  /** The search ignores the case of the search text. */
  lemma SearchIgnoresCase(posts: seq<Post>, kind: string, search: string)
    ensures Visible(posts, kind, Lower(search)) == Visible(posts, kind, search)
  {
    LowerIdempotent(search);
    FilterExtensional(posts, (p: Post) => Passes(p, kind, Lower(search)), (p: Post) => Passes(p, kind, search));
  }
}

=== FILE: github_success.dfy ===
/** The OAuth landing page (src/pages/GithubSuccess.js): it reads `token`
    from the query string, stores it, and moves on. */
module GithubSuccess {
  import opened Wrappers
  import opened Text
  import opened Entities
  import opened Storage
  import Auth
  import opened Guard

  const DashboardPath: string := "/dashboard"

  /** The store after the page ran, and the one place it navigated to. */
  datatype Landing = Landing(store: Store, to: string)

  /** The mount effect, given `URLSearchParams.get('token')`: a non-empty
      token is stored and the dashboard opened; otherwise storage is left
      alone and the login page opened. */
  function Land(store: Store, token: Option<string>): (r: Landing)
    ensures r.to == DashboardPath <==> Truthy(token)
    ensures r.to == LoginPath <==> !Truthy(token)
    ensures Truthy(token) ==> r.store == store[Auth.TokenKey := Text(token.value)]
    ensures !Truthy(token) ==> r.store == store
  {
    if Truthy(token) then Landing(store[Auth.TokenKey := Text(token.value)], DashboardPath)
    else Landing(store, LoginPath)
  }

  /** No user is stored, so unless one was stored before, a fresh session
      has nobody signed in and the dashboard the page opens redirects to the
      login page; the stored token is what later requests carry. */
  lemma GithubTokenWithoutUserIsStillGuarded(store: Store, token: Option<string>)
    requires Auth.UserKeyName !in store
    ensures var r := Land(store, token);
      && Auth.Hydrate(Auth.Mount(r.store)).currentUser.None?
      && Decide(Auth.Hydrate(Auth.Mount(r.store)).currentUser, Location(r.to, "")).Redirect?
    ensures Truthy(token) ==> GetText(Land(store, token).store, Auth.TokenKey) == token
  {
  }
}

=== FILE: guard.dfy ===
/** The route guard (src/components/PrivateRoute.js). */
module Guard {
  import opened Wrappers
  import opened Entities

  /** A router location. */
  datatype Location = Location(pathname: string, search: string)

  /** The navigation state a redirect carries: `{ from: location }`. */
  datatype NavState = NavState(from: Option<Location>)

  datatype Decision =
    | Redirect(to: string, state: NavState, replace: bool)
    | RenderChildren

  const LoginPath: string := "/login"

  /** Signed-in visitors see the wrapped page; everybody else is sent to the
      login page, replacing the history entry and remembering where they
      were going. There is no role check. */
  function Decide(currentUser: Option<User>, here: Location): (r: Decision)
    ensures r.RenderChildren? <==> currentUser.Some?
    ensures r.Redirect? ==> r.to == LoginPath && r.replace && r.state == NavState(Some(here))
  {
    if currentUser.None? then Redirect(LoginPath, NavState(Some(here)), true) else RenderChildren
  }

  /** The decision depends only on whether somebody is signed in. */
  lemma DecisionDependsOnlyOnPresence(a: Option<User>, b: Option<User>, here: Location)
    requires a.Some? <==> b.Some?
    ensures Decide(a, here) == Decide(b, here)
  {
  }
}

=== FILE: header.dfy ===
/** The page header (src/components/Header.js): the search box, sign-out,
    and the signed-in user's avatar initial and name. `encodeURIComponent`
    is an input. */
module Header {
  import opened Wrappers
  import opened Text
  import opened Entities
  import opened Storage
  import Auth
  import opened Guard

  const SearchPath: string := "/incidents?q="
  const HomePath: string := "/"
  const FallbackInitial: string := "U"
  const FallbackName: string := "User"

  /** `handleSearch`: where the search box navigates, if anywhere. The
      trimmed query decides, the untrimmed one is sent. */
  function SearchTarget(query: string, encode: string -> string): (r: Option<string>)
    ensures r.None? <==> IsBlank(query)
    ensures r.Some? ==> r.value == SearchPath + encode(query)
  {
    if IsBlank(query) then None else Some(SearchPath + encode(query))
  }

  /** The search navigates exactly when the query has a non-white character. */
  lemma SearchNeedsVisibleCharacter(query: string, encode: string -> string)
    ensures SearchTarget(query, encode).Some? <==> exists i :: 0 <= i < |query| && !IsWhite(query[i])
  {
    BlankIffAllWhite(query);
  }

  /** `handleLogout`: sign out, then go home. */
  datatype SignedOut = SignedOut(auth: Auth.AuthState, to: string)

  function SignOut(auth: Auth.AuthState): (r: SignedOut)
    ensures r.auth.currentUser.None? && r.to == HomePath
    ensures GetUser(r.auth.store, Auth.UserKeyName).None?
  {
    SignedOut(Auth.Logout(auth), HomePath)
  }

  /** After signing out every guarded page redirects, also after a reload,
      while the token stays stored. */
  lemma SignOutLocksGuardedPages(auth: Auth.AuthState, here: Location)
    ensures Decide(SignOut(auth).auth.currentUser, here).Redirect?
    ensures Decide(Auth.Hydrate(Auth.Mount(SignOut(auth).auth.store)).currentUser, here).Redirect?
    ensures GetText(SignOut(auth).auth.store, Auth.TokenKey) == GetText(auth.store, Auth.TokenKey)
  {
    Auth.LogoutKeepsToken(auth);
  }

  /** `currentUser.name || 'User'`. */
  function DisplayName(name: Option<string>): (r: string)
    ensures r != ""
    ensures Truthy(name) ==> r == name.value
  {
    OrElse(name, FallbackName)
  }

  /** `currentUser.name?.charAt(0).toUpperCase() || 'U'`. */
  function AvatarInitial(name: Option<string>): (r: string)
    ensures |r| == 1
    ensures Truthy(name) ==> r[0] == UpperChar(name.value[0])
    ensures !Truthy(name) ==> r == FallbackInitial
  {
    if Truthy(name) then [UpperChar(name.value[0])] else FallbackInitial
  }

  /** The avatar shows the upper-cased first letter of the displayed name,
      with or without a name. */
  lemma AvatarShowsDisplayedInitial(name: Option<string>)
    ensures AvatarInitial(name) == [UpperChar(DisplayName(name)[0])]
  {
  }
}

=== FILE: incident_detail.dfy ===
/** A single post with its flat comment list (src/pages/IncidentDetail.js):
    loading, posting a comment or a reply, choosing the comment to reply to,
    and what the page shows. */
module IncidentDetail {
  import opened Wrappers
  import opened Text
  import opened Entities
  import opened Api

  const FetchFailed: string := "Failed to fetch incident"
  const PostFailed: string := "Failed to post comment"

  datatype DetailPage = DetailPage(
    incident: Option<Post>,
    comments: seq<FlatComment>,
    loading: bool,
    error: Option<string>,
    commentText: string,
    submitting: bool,
    replyingTo: Option<string>)

  /** The fetch effect: adopt the post and its comments (none if it has no
      comment list), or show the error. */
  function Load(p: DetailPage, resp: Response<Post>): (r: DetailPage)
    ensures !r.loading
    ensures resp.Success? ==> r.incident == Some(resp.data) && r.error == p.error
    ensures resp.Success? && resp.data.comments.Some? ==> r.comments == resp.data.comments.value
    ensures resp.Success? && resp.data.comments.None? ==> r.comments == []
    ensures resp.Failure? ==> r == p.(error := Some(OrElse(resp.message, FetchFailed)), loading := false)
  {
    match resp
    case Success(post) => p.(incident := Some(post), comments := post.comments.GetOr([]), loading := false)
    case Failure(m) => p.(error := Some(OrElse(m, FetchFailed)), loading := false)
  }

  /** What posting did: the handler result and the alert raised, if any. */
  datatype Posted = Posted(handled: Handled<DetailPage>, alert: Option<string>)

  /** `handleCommentSubmit` on the page of post `id`: a blank draft sends
      nothing; otherwise a comment (a reply when a target is chosen) is
      created; on success it goes last and draft and target are cleared, on
      failure the server's message, or a fixed one, is alerted. */
  function Submit(p: DetailPage, id: string, resp: Response<FlatComment>): (r: Posted)
    ensures IsBlank(p.commentText) ==> r.handled.call.None? && r.handled.state == p && r.alert.None?
    ensures !IsBlank(p.commentText) ==>
      && r.handled.call == Some(CreateFlatComment(id, p.commentText, p.replyingTo))
      && !r.handled.state.submitting
    ensures !IsBlank(p.commentText) && resp.Success? ==>
      && r.handled.state.comments == p.comments + [resp.data]
      && r.handled.state.commentText == "" && r.handled.state.replyingTo.None?
      && r.alert.None?
    ensures !IsBlank(p.commentText) && resp.Failure? ==>
      && r.handled.state == p.(submitting := false)
      && r.alert == Some(OrElse(resp.message, PostFailed))
  {
    if IsBlank(p.commentText) then Posted(Handled(p, None), None)
    else
      var call := Some(CreateFlatComment(id, p.commentText, p.replyingTo));
      match resp
      case Success(c) =>
        Posted(Handled(p.(comments := p.comments + [c], commentText := "", replyingTo := None, submitting := false), call), None)
      case Failure(m) =>
        Posted(Handled(p.(submitting := false), call), Some(OrElse(m, PostFailed)))
  }

  /** A successful reply adds one comment whose parent is the comment that
      was chosen, and nothing else in the list changes. */
  lemma ReplyJoinsList(p: DetailPage, id: string, c: FlatComment, target: string)
    requires !IsBlank(p.commentText) && p.replyingTo == Some(target)
    ensures Submit(p, id, Success(c)).handled.call.value.parentComment == Some(target)
    ensures |Submit(p, id, Success(c)).handled.state.comments| == |p.comments| + 1
    ensures Submit(p, id, Success(c)).handled.state.comments[..|p.comments|] == p.comments
  {
  }

  /** `handleCommentSubmit` as written: the wrapper it calls is not defined,
      so it may also see an exception, whose message it alerts. */
  function SubmitAsWritten(p: DetailPage, id: string, a: Answer<FlatComment>): (r: Posted)
    ensures IsBlank(p.commentText) ==> r.handled.call.None? && r.handled.state == p && r.alert.None?
    ensures !IsBlank(p.commentText) && a.Returned? ==> r == Submit(p, id, a.body)
    ensures !IsBlank(p.commentText) && a.Threw? ==>
      && r.handled.call.None? && r.handled.state == p.(submitting := false)
      && r.alert == Some(Caught(a.message))
  {
    if IsBlank(p.commentText) then Posted(Handled(p, None), None)
    else match a
      case Returned(resp) => Submit(p, id, resp)
      case Threw(m) => Posted(Handled(p.(submitting := false), None), Some(Caught(m)))
  }

  /** Whatever the network does, a comment or reply submitted on the page as
      written is never added: the list, the draft and the chosen target stay
      as they were, and an alert is raised. */
  lemma AsWrittenCommentsNeverPost(p: DetailPage, id: string, t: Transport<FlatComment>, typeError: Option<string>)
    requires !IsBlank(p.commentText)
    ensures var r := SubmitAsWritten(p, id, Perform(CreateFlatComment(id, p.commentText, p.replyingTo), t, typeError));
      && r.handled.state.comments == p.comments
      && r.handled.state.commentText == p.commentText
      && r.handled.state.replyingTo == p.replyingTo
      && r.alert.Some? && r.alert.value != ""
  {
  }

  /** `toggleReply(c)`:choosing the chosen comment again clears the
      choice; choosing another comment chooses it and clears the draft. */
  function ToggleReply(p: DetailPage, c: string): (r: DetailPage)
    ensures p.replyingTo == Some(c) ==> r == p.(replyingTo := None)
    ensures p.replyingTo != Some(c) ==> r == p.(replyingTo := Some(c), commentText := "")
  {
    if p.replyingTo == Some(c) then p.(replyingTo := None) else p.(replyingTo := Some(c), commentText := "")
  }

  /** Toggling a comment that is not chosen twice ends with no comment
      chosen (undoing the first toggle apart from the cleared draft when none
      was chosen); toggling the chosen one twice chooses it again with an
      empty draft. */
  lemma ToggleTwice(p: DetailPage, c: string)
    ensures p.replyingTo != Some(c) ==> ToggleReply(ToggleReply(p, c), c).replyingTo.None?
    ensures p.replyingTo.None? ==> ToggleReply(ToggleReply(p, c), c) == p.(commentText := "")
    ensures p.replyingTo == Some(c) ==> ToggleReply(ToggleReply(p, c), c) == p.(commentText := "")
  {
  }

  /** The count caption. */
  function AnswerWord(n: nat): (r: string)
    ensures r == "answer" <==> n == 1
    ensures r == "answers" <==> n != 1
  {
    if n == 1 then "answer" else "answers"
  }

  /** What the page renders. */
  datatype View =
    | Spinner
    | ErrorText(message: string)
    | Content(post: Option<Post>, caption: string, replyButtons: nat)

  /** Loading wins over an error, an error over the content; every comment
      gets a Reply button when somebody is signed in, none otherwise. */
  function Render(p: DetailPage, currentUser: Option<User>): (v: View)
    ensures v.Spinner? <==> p.loading
    ensures v.ErrorText? <==> !p.loading && Truthy(p.error)
    ensures v.Content? ==> v.post == p.incident && v.caption == AnswerWord(|p.comments|)
    ensures v.Content? ==> (v.replyButtons > 0 <==> p.incident.Some? && currentUser.Some? && |p.comments| > 0)
  {
    if p.loading then Spinner
    else if Truthy(p.error) then ErrorText(p.error.value)
    else Content(p.incident, AnswerWord(|p.comments|), if p.incident.Some? && currentUser.Some? then |p.comments| else 0)
  }

  /** After a successful load the page shows the post with a caption that
      matches its comment count. */
  lemma LoadedPageShowsPost(p: DetailPage, post: Post, u: Option<User>)
    requires !Truthy(p.error)
    ensures Render(Load(p, Success(post)), u) == Content(Some(post), AnswerWord(|post.comments.GetOr([])|),
      if u.Some? then |post.comments.GetOr([])| else 0)
  {
  }
}

=== FILE: incidents_list.dfy ===
/** The public post list (src/pages/IncidentsList.js): loading, the
    filters, one expandable comment section at a time, comments and replies,
    and poll voting. */
module IncidentsList {
  import opened Wrappers
  import opened Text
  import opened Entities
  import opened Api
  import opened Feed
  import opened Polls
  import opened Threads

  const FetchFailed: string := "Failed to fetch incidents"
  const LoginToComment: string := "Please log in to comment"

  /** The page's state. `expanded` holds the ids whose comment section is
      open. */
  datatype ListPage = ListPage(
    posts: seq<Post>,
    loading: bool,
    error: Option<string>,
    kind: string,
    search: string,
    expanded: set<string>,
    thread: Thread,
    loadingComments: bool)

  /** The page as first rendered. */
  function Initial(): (p: ListPage)
    ensures p.loading && p.posts == [] && p.kind == AllKinds && p.search == "" && p.expanded == {}
  {
    ListPage([], true, None, AllKinds, "", {}, Thread(None, [], "", "", None), false)
  }

  /** `fetchIncidents`: adopt the list (adjusting voted polls) or show the
      error; stop loading either way. */
  function Load(p: ListPage, resp: Response<seq<Post>>): (r: ListPage)
    ensures !r.loading
    ensures resp.Success? ==> r == p.(posts := LoadPosts(resp.data), loading := false)
    ensures resp.Failure? ==> r == p.(error := Some(OrElse(resp.message, FetchFailed)), loading := false)
  {
    match resp
    case Success(data) => p.(posts := LoadPosts(data), loading := false)
    case Failure(m) => p.(error := Some(OrElse(m, FetchFailed)), loading := false)
  }

  /** The posts on screen. */
  function Shown(p: ListPage): seq<Post> {
    Visible(p.posts, p.kind, p.search)
  }

  /** The page's invariant: at most one comment section is open. */
  predicate AtMostOneOpen(p: ListPage) {
    |p.expanded| <= 1
  }

  /** `handleOpenComments(id)`: a click on an open section closes every
      section; otherwise the post becomes the current one and, if its
      comments arrive, they replace the list and only its section is open. */
  function OpenComments(p: ListPage, id: string, resp: Response<Option<seq<Comment>>>): (r: Handled<ListPage>)
    ensures id in p.expanded ==> r.state == p.(expanded := {}) && r.call.None?
    ensures id !in p.expanded ==>
      && r.call == Some(GetComments(id))
      && r.state.thread.incident == FindById(p.posts, id)
      && !r.state.loadingComments
      && r.state.posts == p.posts
    ensures id !in p.expanded && resp.Success? ==>
      r.state.expanded == {id} && r.state.thread.comments == resp.data.GetOr([])
    ensures id !in p.expanded && resp.Failure? ==>
      r.state.expanded == p.expanded && r.state.thread.comments == p.thread.comments
  {
    if id in p.expanded then Handled(p.(expanded := {}), None)
    else
      var withIncident := p.(thread := p.thread.(incident := FindById(p.posts, id)));
      match resp
      case Success(data) =>
        Handled(withIncident.(thread := withIncident.thread.(comments := data.GetOr([])), expanded := {id}, loadingComments := false), Some(GetComments(id)))
      case Failure(_) => Handled(withIncident.(loadingComments := false), Some(GetComments(id)))
  }

  /** Opening and closing sections keeps at most one open. */
  lemma OpenCommentsKeepsOneOpen(p: ListPage, id: string, resp: Response<Option<seq<Comment>>>)
    requires AtMostOneOpen(p)
    ensures AtMostOneOpen(OpenComments(p, id, resp).state)
    ensures id in p.expanded ==> OpenComments(p, id, resp).state.expanded == {}
  {
  }

  /** What submitting a comment did: the handler result and the alert it
      raised, if any. */
  datatype Commented = Commented(handled: Handled<ListPage>, alert: Option<string>)

  /** `handleSubmitComment`: a blank draft, no open post or nobody signed in
      raises the log-in alert and sends nothing. */
  function SubmitComment(p: ListPage, user: Option<User>, resp: Response<Comment>): (r: Commented)
    ensures r.alert.Some? <==> r.handled.call.None?
    ensures r.alert.Some? <==> IsBlank(p.thread.commentText) || p.thread.incident.None? || user.None?
    ensures r.alert.Some? ==> r.alert == Some(LoginToComment) && r.handled.state == p
    ensures r.alert.None? ==>
      && r.handled.call == Some(AddComment(p.thread.incident.value.id, p.thread.commentText))
      && r.handled.state == p.(thread := SendComment(p.thread, resp).state)
    ensures r.alert.None? && resp.Success? ==> r.handled.state.thread.comments == p.thread.comments + [resp.data]
  {
    if IsBlank(p.thread.commentText) || p.thread.incident.None? || user.None? then
      Commented(Handled(p, None), Some(LoginToComment))
    else
      var h := SendComment(p.thread, resp);
      Commented(Handled(p.(thread := h.state), h.call), None)
  }

  /** `handleReply`. */
  function Reply(p: ListPage, commentId: string): (r: ListPage)
    ensures r.thread.replyingTo == Some(commentId)
    ensures r.(thread := p.thread) == p
  {
    p.(thread := ReplyTo(p.thread, commentId))
  }

  /** `handleSubmitReply`: the shared reply rule on this page's thread. */
  function SubmitReplyOnList(p: ListPage, resp: Response<Reply>): (r: Handled<ListPage>)
    ensures r.call.Some? <==> CanReply(p.thread)
    ensures r.state == p.(thread := SubmitReply(p.thread, resp).state)
    ensures r.state.posts == p.posts && r.state.expanded == p.expanded
  {
    var h := SubmitReply(p.thread, resp);
    Handled(p.(thread := h.state), h.call)
  }

  /** `handleSubmitVote(id, j)`: only a signed-in user can vote; a
      successful vote updates the matching posts and nothing else. */
  function SubmitVote(p: ListPage, user: Option<User>, id: string, j: int, resp: Response<Post>): (r: Handled<ListPage>)
    ensures user.None? ==> r.call.None? && r.state == p
    ensures user.Some? ==> r.call == Some(Vote(id, j))
    ensures user.Some? && resp.Success? ==> r.state == p.(posts := UpdateById(p.posts, id, (q: Post) => CastVote(q, j)))
    ensures resp.Failure? ==> r.state == p
  {
    if user.None? then Handled(p, None)
    else
      match resp
      case Success(_) => Handled(p.(posts := UpdateById(p.posts, id, (q: Post) => CastVote(q, j))), Some(Vote(id, j)))
      case Failure(_) => Handled(p, Some(Vote(id, j)))
  }

  /** `handleRemoveVote(id)`: only a signed-in user can withdraw; a
      successful withdrawal updates the matching posts and nothing else. */
  function RemoveVote(p: ListPage, user: Option<User>, id: string, resp: Response<Post>): (r: Handled<ListPage>)
    ensures user.None? ==> r.call.None? && r.state == p
    ensures user.Some? ==> r.call == Some(Api.RemoveVote(id))
    ensures user.Some? && resp.Success? ==> r.state == p.(posts := UpdateById(p.posts, id, RetractVote))
    ensures resp.Failure? ==> r.state == p
  {
    if user.None? then Handled(p, None)
    else
      match resp
      case Success(_) => Handled(p.(posts := UpdateById(p.posts, id, RetractVote)), Some(Api.RemoveVote(id)))
      case Failure(_) => Handled(p, Some(Api.RemoveVote(id)))
  }

  /** A successful first vote on a post adds one vote to that post's total
      and leaves every other post as it was; withdrawing it again restores
      the counts. */
  lemma VoteThenWithdraw(p: ListPage, user: User, id: string, j: int, ack: Post, k: int)
    requires 0 <= k < |p.posts| && p.posts[k].id == id
    requires p.posts[k].selectedOption.None? && 0 <= j < |p.posts[k].options|
    ensures var voted := SubmitVote(p, Some(user), id, j, Success(ack)).state;
      && Total(voted.posts[k].options) == Total(p.posts[k].options) + 1
      && (forall i :: 0 <= i < |p.posts| && p.posts[i].id != id ==> voted.posts[i] == p.posts[i])
      && Counts(RemoveVote(voted, Some(user), id, Success(ack)).state.posts[k].options) == Counts(p.posts[k].options)
  {
    FreshVoteAddsOne(p.posts[k], j);
    RetractUndoesFreshVote(p.posts[k], j);
  }

  /** No handler other than `handleOpenComments` touches the set of open
      comment sections, so each keeps at most one open. */
  lemma HandlersKeepOneOpen(p: ListPage, user: Option<User>, id: string, j: int, resp: Response<Post>,
                            cresp: Response<Comment>, rresp: Response<Reply>, lresp: Response<seq<Post>>)
    ensures Load(p, lresp).expanded == p.expanded
    ensures SubmitVote(p, user, id, j, resp).state.expanded == p.expanded
    ensures RemoveVote(p, user, id, resp).state.expanded == p.expanded
    ensures SubmitComment(p, user, cresp).handled.state.expanded == p.expanded
    ensures SubmitReplyOnList(p, rresp).state.expanded == p.expanded
    ensures Reply(p, id).expanded == p.expanded
    ensures AtMostOneOpen(p) ==>
      && AtMostOneOpen(Load(p, lresp)) && AtMostOneOpen(SubmitVote(p, user, id, j, resp).state)
      && AtMostOneOpen(RemoveVote(p, user, id, resp).state) && AtMostOneOpen(SubmitComment(p, user, cresp).handled.state)
      && AtMostOneOpen(SubmitReplyOnList(p, rresp).state) && AtMostOneOpen(Reply(p, id))
  {
  }
}

=== FILE: knowledge_base.dfy ===
/** The knowledge-base list (src/pages/KnowledgeBase.js): the category
    sent with the request, the loaded articles and the title/content
    search. */
module KnowledgeBase {
  import opened Wrappers
  import opened Text
  import opened Entities
  import opened Seqs
  import opened Api

  const AllCategories: string := "all"
  const FetchFailed: string := "Failed to fetch articles"

  datatype ArticlesPage = ArticlesPage(
    category: string,
    articles: seq<Article>,
    loading: bool,
    error: Option<string>,
    search: string)

  /** The request parameters: a category only when one is chosen. */
  function CategoryParam(category: string): (r: Option<string>)
    ensures r.Some? <==> category != AllCategories
    ensures r.Some? ==> r.value == category
  {
    if category != AllCategories then Some(category) else None
  }

  /** The fetch effect (re-run when the category changes). */
  function Load(p: ArticlesPage, resp: Response<seq<Article>>): (r: Handled<ArticlesPage>)
    ensures r.call == Some(ListArticles(CategoryParam(p.category)))
    ensures !r.state.loading && r.state.category == p.category && r.state.search == p.search
    ensures resp.Success? ==> r.state.articles == resp.data && r.state.error == p.error
    ensures resp.Failure? ==>
      r.state.articles == p.articles && r.state.error == Some(OrElse(resp.message, FetchFailed))
  {
    var call := Some(ListArticles(CategoryParam(p.category)));
    match resp
    case Success(data) => Handled(p.(articles := data, loading := false), call)
    case Failure(m) => Handled(p.(error := Some(OrElse(m, FetchFailed)), loading := false), call)
  }

  /** The fetch effect as written: its request goes through a wrapper name
      the API module does not define, so the page may also see an
      exception, whose message it shows. */
  function LoadAsWritten(p: ArticlesPage, a: Answer<seq<Article>>): (r: ArticlesPage)
    ensures !r.loading && r.category == p.category && r.search == p.search
    ensures a.Returned? && a.body.Success? ==> r.articles == a.body.data
    ensures a.Threw? ==> r.articles == p.articles && r.error == Some(Caught(a.message))
  {
    match a
    case Returned(resp) => Load(p, resp).state
    case Threw(m) => p.(error := Some(Caught(m)), loading := false)
  }

  /** Whatever the network does, the page as written never receives an
      article: the list keeps what it had and an error is shown. */
  lemma AsWrittenArticlesNeverArrive(p: ArticlesPage, t: Transport<seq<Article>>, typeError: Option<string>)
    ensures var r := LoadAsWritten(p, Perform(ListArticles(CategoryParam(p.category)), t, typeError));
      && r.articles == p.articles && r.error.Some? && r.error.value != ""
      && Shown(r.articles, r.search) == Shown(p.articles, p.search)
  {
  }

  /** The search test: the lower-cased term occurs in the lower-cased title
      or content, when present. */
  predicate Matches(a: Article, search: string) {
    (a.title.Some? && Contains(Lower(a.title.value), Lower(search)))
    || (a.content.Some? && Contains(Lower(a.content.value), Lower(search)))
  }

  /** `filteredArticles`. */
  function Shown(articles: seq<Article>, search: string): (r: seq<Article>)
    ensures forall a :: a in r ==> a in articles && Matches(a, search)
    ensures forall i :: 0 <= i < |articles| && Matches(articles[i], search) ==> articles[i] in r
  {
    Filter(articles, (a: Article) => Matches(a, search))
  }

  /** The shown articles keep their order; an empty search shows exactly
      the articles with a title or a content; a match is an occurrence at
      some position of the title or the content. */
  lemma ShownLaws(articles: seq<Article>, search: string, a: Article)
    ensures IsSubsequence(Shown(articles, search), articles)
    ensures Shown(articles, "") == Filter(articles, (b: Article) => b.title.Some? || b.content.Some?)
    ensures Matches(a, search) <==>
      (a.title.Some? && exists i :: OccursAt(Lower(a.title.value), Lower(search), i))
      || (a.content.Some? && exists i :: OccursAt(Lower(a.content.value), Lower(search), i))
  {
    FilterIsSubsequence(articles, (b: Article) => Matches(b, search));
    forall b: Article
      ensures Matches(b, "") == (b.title.Some? || b.content.Some?)
    {
      if b.title.Some? { ContainsEmpty(Lower(b.title.value)); }
      if b.content.Some? { ContainsEmpty(Lower(b.content.value)); }
    }
    FilterExtensional(articles, (b: Article) => Matches(b, ""), (b: Article) => b.title.Some? || b.content.Some?);
    if a.title.Some? { ContainsIffOccurs(Lower(a.title.value), Lower(search)); }
    if a.content.Some? { ContainsIffOccurs(Lower(a.content.value), Lower(search)); }
  }

  /** The search ignores case in the search text. */
  lemma SearchIgnoresCase(articles: seq<Article>, search: string)
    ensures Shown(articles, Lower(search)) == Shown(articles, search)
  {
    LowerIdempotent(search);
    FilterExtensional(articles, (a: Article) => Matches(a, Lower(search)), (a: Article) => Matches(a, search));
  }
}

=== FILE: knowledge_base_detail.dfy ===
/** One knowledge-base article (src/pages/KnowledgeBaseDetail.js):
    loading, the paragraphs shown, the admin-only controls and deletion. */
module KnowledgeBaseDetail {
  import opened Wrappers
  import opened Text
  import opened Entities
  import opened Api

  const FetchFailed: string := "Failed to fetch article"
  const DeleteFailed: string := "Failed to delete article"
  const ListPath: string := "/knowledge-base"
  const AdminRole: string := "admin"

  datatype ArticlePage = ArticlePage(article: Option<Article>, loading: bool, error: Option<string>)

  /** The fetch effect: adopt what the server sent (possibly nothing), or
      show the error. */
  function Load(p: ArticlePage, id: string, resp: Response<Option<Article>>): (r: Handled<ArticlePage>)
    ensures r.call == Some(GetArticle(id)) && !r.state.loading
    ensures resp.Success? ==> r.state.article == resp.data && r.state.error == p.error
    ensures resp.Failure? ==> r.state.article == p.article && r.state.error == Some(OrElse(resp.message, FetchFailed))
  {
    match resp
    case Success(a) => Handled(p.(article := a, loading := false), Some(GetArticle(id)))
    case Failure(m) => Handled(p.(error := Some(OrElse(m, FetchFailed)), loading := false), Some(GetArticle(id)))
  }

  /** The fetch effect as written: the wrapper it calls is not defined, so
      the page may also see an exception, whose message it shows. */
  function LoadAsWritten(p: ArticlePage, id: string, a: Answer<Option<Article>>): (r: ArticlePage)
    ensures !r.loading
    ensures a.Returned? && a.body.Success? ==> r.article == a.body.data && r.error == p.error
    ensures a.Threw? ==> r.article == p.article && r.error == Some(Caught(a.message))
  {
    match a
    case Returned(resp) => Load(p, id, resp).state
    case Threw(m) => p.(error := Some(Caught(m)), loading := false)
  }

  /** `content.split('\n')`: one paragraph per line. */
  function Paragraphs(content: string): (r: seq<string>)
    ensures |r| >= 1
    ensures forall i :: 0 <= i < |r| ==> '\n' !in r[i]
  {
    Split(content, '\n')
  }

  /** The paragraphs are the content's lines: joined with newlines they give
      the content back, there is one more of them than there are newlines,
      and lines without newlines are recovered from their join. */
  lemma ParagraphsAreLines(content: string, lines: seq<string>)
    ensures Join(Paragraphs(content), '\n') == content
    ensures |Paragraphs(content)| == CountChar(content, '\n') + 1
    ensures |lines| >= 1 && (forall i :: 0 <= i < |lines| ==> '\n' !in lines[i]) ==>
      Paragraphs(Join(lines, '\n')) == lines
  {
    SplitJoin(content, '\n');
    SplitCount(content, '\n');
    if |lines| >= 1 && (forall i :: 0 <= i < |lines| ==> '\n' !in lines[i]) {
      SplitOfJoin(lines, '\n');
    }
  }

  /** `currentUser?.role === 'admin'`. */
  function ShowsAdminControls(currentUser: Option<User>): (r: bool)
    ensures currentUser.None? ==> !r
    ensures currentUser.Some? ==> (r <==> currentUser.value.role == Some(AdminRole))
  {
    currentUser.Some? && currentUser.value.role == Some(AdminRole)
  }

  /** What the page renders. An article without content makes the render
      fail (`split` of undefined). */
  datatype View =
    | Spinner
    | ErrorAlert(message: string)
    | ArticleCard(title: Option<string>, paragraphs: seq<string>, adminControls: bool)
    | Crashed
    | NotFound

  function Render(p: ArticlePage, currentUser: Option<User>): (v: View)
    ensures v.Spinner? <==> p.loading
    ensures v.ErrorAlert? <==> !p.loading && Truthy(p.error)
    ensures v.NotFound? <==> !p.loading && !Truthy(p.error) && p.article.None?
    ensures v.ArticleCard? ==>
      && p.article.Some? && p.article.value.content.Some?
      && v.paragraphs == Paragraphs(p.article.value.content.value)
      && (v.adminControls <==> ShowsAdminControls(currentUser))
  {
    if p.loading then Spinner
    else if Truthy(p.error) then ErrorAlert(p.error.value)
    else match p.article
      case None => NotFound
      case Some(a) =>
        match a.content
        case None => Crashed
        case Some(c) => ArticleCard(a.title, Paragraphs(c), ShowsAdminControls(currentUser))
  }

  /** Only an administrator sees the edit and delete controls, and a loaded
      article's card shows all of its content. */
  lemma AdminOnlyControls(p: ArticlePage, a: Article, c: string, u: Option<User>)
    requires !p.loading && !Truthy(p.error) && p.article == Some(a) && a.content == Some(c)
    ensures Render(p, u).ArticleCard?
    ensures Render(p, u).adminControls <==> u.Some? && u.value.role == Some(AdminRole)
    ensures Join(Render(p, u).paragraphs, '\n') == c
  {
    SplitJoin(c, '\n');
  }

  /** What the delete button did: the request, the page opened, the alert. */
  datatype Deleted = Deleted(call: Option<Call>, nav: Option<string>, alert: Option<string>)

  /** The delete button, given the answer to the confirmation dialog. */
  function Delete(a: Article, confirmed: bool, resp: Response<Article>): (r: Deleted)
    ensures !confirmed ==> r == Deleted(None, None, None)
    ensures confirmed ==> r.call == Some(DeleteArticle(a.id))
    ensures confirmed && resp.Success? ==> r.nav == Some(ListPath) && r.alert.None?
    ensures confirmed && resp.Failure? ==> r.nav.None? && r.alert == Some(OrElse(resp.message, DeleteFailed))
  {
    if !confirmed then Deleted(None, None, None)
    else match resp
      case Success(_) => Deleted(Some(DeleteArticle(a.id)), Some(ListPath), None)
      case Failure(m) => Deleted(Some(DeleteArticle(a.id)), None, Some(OrElse(m, DeleteFailed)))
  }

  /** The delete button as written: the wrapper it calls is not defined, so
      it may also see an exception, whose message it alerts. */
  function DeleteAsWritten(a: Article, confirmed: bool, ans: Answer<Article>): (r: Deleted)
    ensures !confirmed ==> r == Deleted(None, None, None)
    ensures confirmed && ans.Returned? ==> r == Delete(a, true, ans.body)
    ensures confirmed && ans.Threw? ==> r.call.None? && r.nav.None? && r.alert == Some(Caught(ans.message))
  {
    if !confirmed then Deleted(None, None, None)
    else match ans
      case Returned(resp) => Delete(a, true, resp)
      case Threw(m) => Deleted(None, None, Some(Caught(m)))
  }

  /** Whatever the network does, the page as written never shows an article
      once its fetch is done, only an error; and a confirmed deletion sends
      nothing, stays on the page and raises an alert. */
  lemma AsWrittenNeverShowsArticle(p: ArticlePage, id: string, t: Transport<Option<Article>>, typeError: Option<string>,
                                   a: Article, dt: Transport<Article>, u: Option<User>)
    ensures var r := LoadAsWritten(p, id, Perform(GetArticle(id), t, typeError));
      Render(r, u).ErrorAlert?
    ensures var d := DeleteAsWritten(a, true, Perform(DeleteArticle(a.id), dt, typeError));
      d.call.None? && d.nav.None? && d.alert.Some?
  {
  }
}

=== FILE: login_page.dfy ===
/** The sign-in page (src/pages/Login.js): where to go after signing in,
    the password form, and the Google sign-in callback. */
module LoginPage {
  import opened Wrappers
  import opened Text
  import opened Entities
  import opened Storage
  import Auth
  import opened Guard

  const DefaultTarget: string := "/dashboard"
  const SignInFailed: string := "Failed to sign in. Please check your credentials."
  const GoogleFailed: string := "Google Sign-In failed"

  /** `location.state?.from?.pathname || '/dashboard'`. */
  function PostLoginTarget(state: Option<NavState>): (r: string)
    ensures state.Some? && state.value.from.Some? && state.value.from.value.pathname != ""
      ==> r == state.value.from.value.pathname
    ensures !(state.Some? && state.value.from.Some? && state.value.from.value.pathname != "") ==> r == DefaultTarget
    ensures r != ""
  {
    if state.Some? && state.value.from.Some? then OrElse(Some(state.value.from.value.pathname), DefaultTarget)
    else DefaultTarget
  }

  /** A redirect by the guard brings the visitor back to the guarded path
      after signing in (the dashboard when that path is empty). */
  lemma GuardThenLoginReturns(here: Location)
    ensures Decide(None, here).Redirect?
    ensures PostLoginTarget(Some(Decide(None, here).state))
      == (if here.pathname != "" then here.pathname else DefaultTarget)
  {
  }

  datatype Form = Form(email: string, password: string, error: string, loading: bool)

  datatype Navigation = Navigation(to: string, replace: bool)

  /** The page, the session and the navigation a handler requested. */
  datatype Step = Step(form: Form, auth: Auth.AuthState, nav: Option<Navigation>)

  /** `handleSubmit`: clear the error, call `login`, go to `from` replacing
      the history entry; on any failure show the fixed message. */
  function Submit(f: Form, from: string, auth: Auth.AuthState, reply: Auth.AuthReply): (r: Step)
    ensures !r.form.loading
    ensures r.form.email == f.email && r.form.password == f.password
    ensures reply.Accepted? ==>
      && r.nav == Some(Navigation(from, true)) && r.form.error == ""
      && r.auth == Auth.Login(auth, reply).state
      && r.auth.currentUser == Some(reply.user)
    ensures !reply.Accepted? ==> r.nav.None? && r.form.error == SignInFailed && r.auth == auth
  {
    var out := Auth.Login(auth, reply);
    match out.result
    case Ok(_) => Step(f.(error := "", loading := false), out.state, Some(Navigation(from, true)))
    case Err(_) => Step(f.(error := SignInFailed, loading := false), out.state, None)
  }

  /** What the Google sign-in endpoint answered, or a rejected fetch. */
  datatype GoogleReply =
    | GoogleData(success: bool, token: string, user: User, message: Option<string>)
    | GoogleFailure

  /** What a Google sign-in callback does to the session and where it goes:
      on success the token and the user are stored, the session adopts the
      user only when `adopt` holds, and the dashboard is opened; otherwise
      nothing is stored and an error is reported. */
  datatype GoogleResult = GoogleResult(auth: Auth.AuthState, nav: Option<Navigation>, error: Option<string>)

  function GoogleCallback(auth: Auth.AuthState, reply: GoogleReply, adopt: bool): (r: GoogleResult)
    ensures r.nav.Some? <==> r.error.None?
    ensures reply.GoogleData? && reply.success ==>
      && r.auth.store == auth.store[Auth.TokenKey := Text(reply.token)][Auth.UserKeyName := Json(reply.user)]
      && r.auth.currentUser == (if adopt then Some(reply.user) else auth.currentUser)
      && r.auth.loading == auth.loading
      && r.nav == Some(Navigation(DefaultTarget, false))
    ensures reply.GoogleData? && !reply.success ==>
      r.auth == auth && r.error == Some(OrElse(reply.message, GoogleFailed))
    ensures reply.GoogleFailure? ==> r.auth == auth && r.error == Some(GoogleFailed)
  {
    match reply
    case GoogleData(success, token, user, message) =>
      if success then
        var store := auth.store[Auth.TokenKey := Text(token)][Auth.UserKeyName := Json(user)];
        var current := if adopt then Some(user) else auth.currentUser;
        GoogleResult(auth.(store := store, currentUser := current), Some(Navigation(DefaultTarget, false)), None)
      else GoogleResult(auth, None, Some(OrElse(message, GoogleFailed)))
    case GoogleFailure => GoogleResult(auth, None, Some(GoogleFailed))
  }

  /** The Google callback of the sign-in page with `setCurrentUser` taken
      from a context that does (`provided`) or does not define it. The
      form's error shows the callback's error, if any. */
  function GoogleLoginWith(f: Form, auth: Auth.AuthState, reply: GoogleReply, provided: bool): (r: Step)
    ensures r.form.email == f.email && r.form.password == f.password && r.form.loading == f.loading
    ensures reply.GoogleData? && reply.success ==>
      && r.auth.store == auth.store[Auth.TokenKey := Text(reply.token)][Auth.UserKeyName := Json(reply.user)]
      && r.auth.currentUser == (if provided then Some(reply.user) else auth.currentUser)
      && r.nav == Some(Navigation(DefaultTarget, false))
      && r.form == f
    ensures reply.GoogleData? && !reply.success ==>
      r.auth == auth && r.nav.None? && r.form.error == OrElse(reply.message, GoogleFailed)
    ensures reply.GoogleFailure? ==> r.auth == auth && r.nav.None? && r.form.error == GoogleFailed
  {
    var g := GoogleCallback(auth, reply, provided);
    match g.error
    case Some(e) => Step(f.(error := e), g.auth, g.nav)
    case None => Step(f, g.auth, g.nav)
  }

  /** `handleGoogleLogin` as written: `setCurrentUser` is read from the
      session context, which does not export it. */
  function GoogleLogin(f: Form, auth: Auth.AuthState, reply: GoogleReply): (r: Step)
    ensures r.auth.currentUser == auth.currentUser
    ensures reply.GoogleData? && reply.success ==> r.nav == Some(Navigation(DefaultTarget, false))
  {
    GoogleLoginWith(f, auth, reply, Auth.Provides("setCurrentUser"))
  }

  /** A successful Google sign-in from a signed-out session stores a token
      and a user, yet the session stays empty, so the dashboard it navigates
      to is guarded and sends the visitor straight back to the login page. */
  lemma GoogleSignInBouncesToLogin(f: Form, auth: Auth.AuthState, token: string, user: User, message: Option<string>)
    requires auth.currentUser.None?
    ensures var r := GoogleLogin(f, auth, GoogleData(true, token, user, message));
      && GetUser(r.auth.store, Auth.UserKeyName) == Some(user)
      && r.nav == Some(Navigation(DefaultTarget, false))
      && Decide(r.auth.currentUser, Location(DefaultTarget, "")).Redirect?
  {
  }

  /** The evidently intended callback: the session adopts the user. */
  function GoogleLoginCorrected(f: Form, auth: Auth.AuthState, reply: GoogleReply): (r: Step)
    ensures reply.GoogleData? && reply.success ==> r.auth.currentUser == Some(reply.user)
    ensures !(reply.GoogleData? && reply.success) ==> r.auth == auth
  {
    GoogleLoginWith(f, auth, reply, true)
  }

  /** With the corrected callback the dashboard is shown after a successful
      Google sign-in, and re-hydrating restores the same user. */
  lemma CorrectedGoogleSignInReachesDashboard(f: Form, auth: Auth.AuthState, token: string, user: User, message: Option<string>)
    ensures var r := GoogleLoginCorrected(f, auth, GoogleData(true, token, user, message));
      && Decide(r.auth.currentUser, Location(DefaultTarget, "")).RenderChildren?
      && Auth.Hydrate(Auth.Mount(r.auth.store)).currentUser == r.auth.currentUser
  {
  }
}

=== FILE: my_queries.dfy ===
/** The signed-in user's own posts (src/pages/MyQueries.js): the fetch
    guard, the fixed 'all' filter, upvoting, the status badge, comments and
    replies in a modal, and the summary counts. The page is only reachable
    through the route guard, so a user is always signed in. */
module MyQueries {
  import opened Wrappers
  import opened Text
  import opened Entities
  import opened Seqs
  import opened Api
  import opened Feed
  import opened Threads
  import UserProfile

  const FetchFailed: string := "Failed to fetch incidents"
  const ActiveFilter: string := "all"

  datatype MinePage = MinePage(
    posts: seq<Post>,
    loading: bool,
    error: Option<string>,
    thread: Thread,
    modalOpen: bool,
    loadingComments: bool)

  /** The fetch effect: a user without `_id` or `id` is not asked about and
      loading simply stops; otherwise the user's posts are requested. */
  function Fetch(p: MinePage, user: User, resp: Response<Option<seq<Post>>>): (r: Handled<MinePage>)
    ensures !r.state.loading
    ensures r.call.None? <==> UserKey(user).None?
    ensures UserKey(user).None? ==> r.state == p.(loading := false)
    ensures UserKey(user).Some? ==> r.call == Some(UserIncidents(UserKey(user).value))
    ensures UserKey(user).Some? && resp.Success? ==> r.state == p.(posts := resp.data.GetOr([]), loading := false)
    ensures UserKey(user).Some? && resp.Failure? ==>
      r.state == p.(error := Some(OrElse(resp.message, FetchFailed)), loading := false)
  {
    match UserKey(user)
    case None => Handled(p.(loading := false), None)
    case Some(key) =>
      match resp
      case Success(data) => Handled(p.(posts := data.GetOr([]), loading := false), Some(UserIncidents(key)))
      case Failure(m) => Handled(p.(error := Some(OrElse(m, FetchFailed)), loading := false), Some(UserIncidents(key)))
  }

  /** The filter test with a given active filter. */
  function StatusPasses(p: Post, active: string): (r: bool)
    ensures active == ActiveFilter ==> r
    ensures active != ActiveFilter ==> (r <==> p.status == Some(active))
  {
    active == "all" || p.status == Some(active)
  }

  /** `filteredIncidents` with the page's fixed active filter. */
  function Shown(posts: seq<Post>): seq<Post> {
    Filter(posts, (p: Post) => StatusPasses(p, ActiveFilter))
  }

  /** The active filter never changes from 'all', so the page shows every
      fetched post, in order. */
  lemma ShownIsEverything(posts: seq<Post>)
    ensures Shown(posts) == posts
  {
    FilterAll(posts, (p: Post) => StatusPasses(p, ActiveFilter));
  }

  /** After a successful fetch the page shows exactly what the server sent,
      in order, or nothing when it sent no list; without an identifier the
      page asks nothing and keeps its posts. */
  lemma FetchedPostsAreShown(p: MinePage, user: User, resp: Response<Option<seq<Post>>>)
    ensures UserKey(user).Some? && resp.Success? ==> Shown(Fetch(p, user, resp).state.posts) == resp.data.GetOr([])
    ensures UserKey(user).None? ==> Fetch(p, user, resp).call.None? && Shown(Fetch(p, user, resp).state.posts) == Shown(p.posts)
  {
    ShownIsEverything(Fetch(p, user, resp).state.posts);
  }

  /** This page and the profile page ask for the same user's posts with the
      same path segment whenever the user has an identifier. */
  lemma SameRequestAsProfile(p: MinePage, q: UserProfile.ProfilePage, user: User,
                             resp: Response<Option<seq<Post>>>, resp2: Response<Option<seq<Post>>>)
    requires UserKey(user).Some? && UserProfile.FetchesOn(q.tab)
    ensures Fetch(p, user, resp).call == UserProfile.Effect(q, Some(user), resp2).call
    ensures Fetch(p, user, resp).call == Some(UserIncidents(UserPathSegment(user)))
  {
  }

  /** The post after an upvote: one more vote, counting a missing count as
      zero, and marked as voted. */
  function Upvoted(p: Post): (r: Post)
    ensures r.votes.Some? && r.votes.value == p.votes.GetOr(0) + 1
    ensures r.hasVoted
    ensures r.(votes := p.votes, hasVoted := p.hasVoted) == p
  {
    p.(votes := Some(p.votes.GetOr(0) + 1), hasVoted := true)
  }

  /** `handleUpvote(id)`: without a user nothing happens; a successful upvote
      changes only the posts with that id. */
  function Upvote(p: MinePage, user: Option<User>, id: string, resp: Response<Post>): (r: Handled<MinePage>)
    ensures user.None? ==> r.call.None? && r.state == p
    ensures user.Some? ==> r.call == Some(Api.Upvote(id))
    ensures resp.Failure? ==> r.state == p
    ensures user.Some? && resp.Success? ==>
      && r.state == p.(posts := r.state.posts)
      && |r.state.posts| == |p.posts|
      && (forall i :: 0 <= i < |p.posts| && p.posts[i].id != id ==> r.state.posts[i] == p.posts[i])
      && (forall i :: 0 <= i < |p.posts| && p.posts[i].id == id ==>
            r.state.posts[i].votes == Some(p.posts[i].votes.GetOr(0) + 1) && r.state.posts[i].hasVoted)
  {
    if user.None? then Handled(p, None)
    else
      match resp
      case Success(_) => Handled(p.(posts := UpdateById(p.posts, id, Upvoted)), Some(Api.Upvote(id)))
      case Failure(_) => Handled(p, Some(Api.Upvote(id)))
  }

  /** The votes of all posts, a missing count read as zero. */
  function VoteSum(posts: seq<Post>): nat {
    if |posts| == 0 then 0 else posts[0].votes.GetOr(0) + VoteSum(posts[1..])
  }

  /** A successful upvote raises the page's total vote count by the number
      of posts carrying the id: by one when ids are distinct. */
  lemma {:induction false} UpvoteRaisesSum(posts: seq<Post>, id: string)
    ensures VoteSum(UpdateById(posts, id, Upvoted)) == VoteSum(posts) + |Filter(posts, (q: Post) => q.id == id)|
  {
    if |posts| > 0 {
      UpvoteRaisesSum(posts[1..], id);
      assert UpdateById(posts, id, Upvoted)[1..] == UpdateById(posts[1..], id, Upvoted);
    }
  }

  /** The status badge's caption and colour. */
  datatype Badge = Badge(caption: string, colour: string)

  /** `renderStatusBadge`: six known statuses, nothing for any other. */
  function StatusBadge(status: string): (r: Option<Badge>)
    ensures r.Some? <==> status in {"open", "in-progress", "resolved", "closed", "answered", "escalated"}
  {
    match status
    case "open" => Some(Badge("Open", "primary"))
    case "in-progress" => Some(Badge("In Progress", "warning"))
    case "resolved" => Some(Badge("Resolved", "success"))
    case "closed" => Some(Badge("Closed", "secondary"))
    case "answered" => Some(Badge("Answered", "info"))
    case "escalated" => Some(Badge("Escalated", "danger"))
    case _ => None
  }

  /** Different statuses get different captions and colours. */
  lemma BadgesDistinct(a: string, b: string)
    requires StatusBadge(a).Some? && StatusBadge(b).Some? && a != b
    ensures StatusBadge(a).value.caption != StatusBadge(b).value.caption
    ensures StatusBadge(a).value.colour != StatusBadge(b).value.colour
  {
  }

  /** `handleOpenComments(post)`: open the modal on the post and, if its
      comments arrive, replace the list. */
  function OpenComments(p: MinePage, post: Post, resp: Response<Option<seq<Comment>>>): (r: Handled<MinePage>)
    ensures r.call == Some(GetComments(post.id))
    ensures r.state.modalOpen && !r.state.loadingComments && r.state.thread.incident == Some(post)
    ensures resp.Success? ==> r.state.thread.comments == resp.data.GetOr([])
    ensures resp.Failure? ==> r.state.thread.comments == p.thread.comments
    ensures r.state.posts == p.posts
  {
    var withPost := p.(thread := p.thread.(incident := Some(post)), modalOpen := true);
    match resp
    case Success(data) =>
      Handled(withPost.(thread := withPost.thread.(comments := data.GetOr([])), loadingComments := false), Some(GetComments(post.id)))
    case Failure(_) => Handled(withPost.(loadingComments := false), Some(GetComments(post.id)))
  }

  /** `handleSubmitComment`: a blank draft or no open post sends nothing; no
      sign-in is checked here. */
  function SubmitComment(p: MinePage, resp: Response<Comment>): (r: Handled<MinePage>)
    ensures r.call.None? <==> IsBlank(p.thread.commentText) || p.thread.incident.None?
    ensures r.call.None? ==> r.state == p
    ensures r.call.Some? && resp.Success? ==>
      && r.state.thread.comments == p.thread.comments + [resp.data]
      && r.state.thread.commentText == ""
    ensures resp.Failure? ==> r.state == p
  {
    if IsBlank(p.thread.commentText) || p.thread.incident.None? then Handled(p, None)
    else
      var h := SendComment(p.thread, resp);
      Handled(p.(thread := h.state), h.call)
  }

  /** `handleReply` and `handleSubmitReply`: the shared rules. */
  function Reply(p: MinePage, commentId: string): (r: MinePage)
    ensures r.thread.replyingTo == Some(commentId) && r.(thread := p.thread) == p
  {
    p.(thread := ReplyTo(p.thread, commentId))
  }

  function SubmitReplyHere(p: MinePage, resp: Response<Reply>): (r: Handled<MinePage>)
    ensures r.call.Some? <==> CanReply(p.thread)
    ensures r.state == p.(thread := SubmitReply(p.thread, resp).state)
  {
    var h := SubmitReply(p.thread, resp);
    Handled(p.(thread := h.state), h.call)
  }

  /** The summary card: total, open, answered, escalated. */
  datatype Summary = Summary(total: nat, open: nat, answered: nat, escalated: nat)

  function WithStatus(posts: seq<Post>, status: string): seq<Post> {
    Filter(posts, (p: Post) => p.status == Some(status))
  }

  /** The number of posts with the given status, counted one by one. */
  function CountStatus(posts: seq<Post>, status: string): nat {
    if |posts| == 0 then 0
    else (if posts[0].status == Some(status) then 1 else 0) + CountStatus(posts[1..], status)
  }

  /** Filtering by a status keeps exactly the posts that have it. */
  lemma {:induction false} WithStatusCounts(posts: seq<Post>, status: string)
    ensures |WithStatus(posts, status)| == CountStatus(posts, status)
  {
    if |posts| > 0 {
      WithStatusCounts(posts[1..], status);
    }
  }

  /** The summary card: the number of posts, and how many of them are
      open, answered and escalated. */
  function Summarise(posts: seq<Post>): (r: Summary)
    ensures r.total == |posts|
    ensures r.open == CountStatus(posts, "open")
    ensures r.answered == CountStatus(posts, "answered")
    ensures r.escalated == CountStatus(posts, "escalated")
  {
    WithStatusCounts(posts, "open");
    WithStatusCounts(posts, "answered");
    WithStatusCounts(posts, "escalated");
    Summary(|posts|, |WithStatus(posts, "open")|, |WithStatus(posts, "answered")|, |WithStatus(posts, "escalated")|)
  }

  /** The three status counts never add up to more than the total. */
  lemma SummaryWithinTotal(posts: seq<Post>)
    ensures Summarise(posts).open + Summarise(posts).answered + Summarise(posts).escalated <= Summarise(posts).total
  {
    var isOpen := (p: Post) => p.status == Some("open");
    var isAnswered := (p: Post) => p.status == Some("answered");
    var isEscalated := (p: Post) => p.status == Some("escalated");
    FilterDisjoint(posts, isOpen, Either(isAnswered, isEscalated));
    FilterSplit(posts, isAnswered, isEscalated);
  }
}

=== FILE: polls.dfy ===
/** Poll tallies as the post-list pages keep them (src/pages/IncidentsList.js,
    src/pages/UserProfile.js): the vote total, and the optimistic update of
    the counts after a vote is cast or withdrawn. */
module Polls {
  import opened Wrappers
  import opened Entities
  import opened Seqs

  /** `option.votes || 0`. */
  function Count(o: PollOption): nat {
    o.votes.GetOr(0)
  }

  /** The counts of a poll's options, in order. */
  function Counts(opts: seq<PollOption>): (r: seq<int>)
    ensures |r| == |opts|
    ensures forall i :: 0 <= i < |opts| ==> r[i] == Count(opts[i])
  {
    seq(|opts|, i requires 0 <= i < |opts| => Count(opts[i]) as int)
  }

  /** `options?.reduce((sum, o) => sum + (o.votes || 0), 0) || 0`. */
  function Total(opts: seq<PollOption>): (r: int)
    ensures r >= 0
    ensures |opts| == 0 ==> r == 0
  {
    SumNonNegative(Counts(opts));
    Sum(Counts(opts))
  }

  /** A total is never negative, and it is zero exactly when no option has a
      vote. */
  lemma {:induction false} TotalBounds(opts: seq<PollOption>)
    ensures Total(opts) >= 0
    ensures Total(opts) == 0 <==> forall i :: 0 <= i < |opts| ==> Count(opts[i]) == 0
    ensures forall i :: 0 <= i < |opts| ==> Count(opts[i]) <= Total(opts)
  {
    if |opts| > 0 {
      TotalBounds(opts[1..]);
      assert Counts(opts)[1..] == Counts(opts[1..]);
      assert forall i :: 1 <= i < |opts| ==> opts[i] == opts[1..][i - 1];
    }
  }

  /** `Math.max(0, n)`. */
  function Floored(n: int): nat {
    if n < 0 then 0 else n
  }

  /** Option `i` after a vote for `j`, the previously selected option
      being `prev`. Every count becomes explicit. */
  function VotedOption(o: PollOption, i: int, prev: Option<int>, j: int): PollOption {
    var afterPrev := if prev == Some(i) then Floored(Count(o) - 1) else Count(o);
    o.(votes := Some(if i == j then afterPrev + 1 else afterPrev))
  }

  /** The post after a successful vote for option `j` (`handleSubmitVote`). */
  function CastVote(p: Post, j: int): (r: Post)
    ensures |r.options| == |p.options|
    ensures r.selectedOption == Some(j) && r.userVotedOption == Some(j)
    ensures r == p.(options := r.options, selectedOption := Some(j), userVotedOption := Some(j))
    ensures forall i :: 0 <= i < |p.options| ==> r.options[i].text == p.options[i].text && r.options[i].votes.Some?
    ensures forall i :: 0 <= i < |p.options| && i != j && p.selectedOption != Some(i) ==>
      Count(r.options[i]) == Count(p.options[i])
    ensures 0 <= j < |p.options| && p.selectedOption != Some(j) ==>
      Count(r.options[j]) == Count(p.options[j]) + 1
    ensures p.selectedOption.Some? && 0 <= p.selectedOption.value < |p.options| && p.selectedOption.value != j ==>
      Count(r.options[p.selectedOption.value]) == Floored(Count(p.options[p.selectedOption.value]) - 1)
  {
    var opts := p.options;
    var voted := seq(|opts|, i requires 0 <= i < |opts| => VotedOption(opts[i], i, p.selectedOption, j));
    p.(options := voted, selectedOption := Some(j), userVotedOption := Some(j))
  }

  /** A first vote for an existing option adds exactly one to the total. */
  lemma FreshVoteAddsOne(p: Post, j: int)
    requires p.selectedOption.None? && 0 <= j < |p.options|
    ensures Total(CastVote(p, j).options) == Total(p.options) + 1
  {
    var before := Counts(p.options);
    var after := Counts(CastVote(p, j).options);
    assert after == before[j := before[j] + 1];
    SumUpdate(before, j, before[j] + 1);
  }

  /** Moving a vote from an option that has one to another option keeps the
      total. */
  lemma SwitchKeepsTotal(p: Post, j: int)
    requires p.selectedOption.Some? && 0 <= p.selectedOption.value < |p.options|
    requires p.selectedOption.value != j && 0 <= j < |p.options|
    requires Count(p.options[p.selectedOption.value]) >= 1
    ensures Total(CastVote(p, j).options) == Total(p.options)
  {
    var k := p.selectedOption.value;
    var before := Counts(p.options);
    var mid := before[k := before[k] - 1];
    var after := Counts(CastVote(p, j).options);
    var expected := mid[j := mid[j] + 1];
    forall i | 0 <= i < |after|
      ensures after[i] == expected[i]
    {
      if i != k && i != j {
        assert after[i] == before[i];
      }
    }
    assert after == expected;
    SumUpdate(before, k, before[k] - 1);
    SumUpdate(mid, j, mid[j] + 1);
  }

  /** Voting again for the option already selected, when it has a vote,
      leaves every count as it was. */
  lemma RevoteKeepsTallies(p: Post, j: int)
    requires p.selectedOption == Some(j) && 0 <= j < |p.options|
    requires Count(p.options[j]) >= 1
    ensures Counts(CastVote(p, j).options) == Counts(p.options)
  {
  }

  /** The post after a successful vote withdrawal (`handleRemoveVote`):
      only the previously selected option loses a vote, floored at zero;
      the other options are left exactly as they were. */
  function RetractVote(p: Post): (r: Post)
    ensures |r.options| == |p.options|
    ensures r.selectedOption.None? && r.userVotedOption.None?
    ensures r == p.(options := r.options, selectedOption := None, userVotedOption := None)
    ensures forall i :: 0 <= i < |p.options| && p.selectedOption != Some(i) ==> r.options[i] == p.options[i]
    ensures p.selectedOption.Some? && 0 <= p.selectedOption.value < |p.options| ==>
      && r.options[p.selectedOption.value].text == p.options[p.selectedOption.value].text
      && Count(r.options[p.selectedOption.value]) == Floored(Count(p.options[p.selectedOption.value]) - 1)
  {
    var opts := p.options;
    var retracted := seq(|opts|, i requires 0 <= i < |opts| =>
      if p.selectedOption == Some(i) then opts[i].(votes := Some(Floored(Count(opts[i]) - 1))) else opts[i]);
    p.(options := retracted, selectedOption := None, userVotedOption := None)
  }

  /** Withdrawing with nothing selected changes no count. */
  lemma RetractWithoutSelectionKeepsTallies(p: Post)
    requires p.selectedOption.None?
    ensures RetractVote(p).options == p.options
  {
  }

  /** Withdrawing a first vote gives back the counts from before it. */
  lemma RetractUndoesFreshVote(p: Post, j: int)
    requires p.selectedOption.None? && 0 <= j < |p.options|
    ensures Counts(RetractVote(CastVote(p, j)).options) == Counts(p.options)
    ensures Total(RetractVote(CastVote(p, j)).options) == Total(p.options)
  {
  }
}

=== FILE: register_page.dfy ===
/** The sign-up page (src/pages/Register.js): the password-confirmation
    check, the sign-up submission and its Google sign-in callback. */
module RegisterPage {
  import opened Wrappers
  import opened Text
  import opened Entities
  import opened Storage
  import Auth
  import opened Guard
  import opened LoginPage

  const PasswordMismatch: string := "Passwords do not match"
  const CreateFailed: string := "Failed to create an account"

  datatype SignUpForm = SignUpForm(email: string, password: string, confirm: string, error: string, loading: bool)

  /** The form, the session, the registration request sent (if any) and the
      navigation requested. */
  datatype SignUp = SignUp(form: SignUpForm, auth: Auth.AuthState, sent: Option<Auth.RegisterBody>, nav: Option<Navigation>)

  /** `handleSubmit`: refuse mismatched passwords before anything else;
      otherwise register with email and password only (no name), open the
      dashboard on success and show a fixed message on failure. */
  function Submit(f: SignUpForm, auth: Auth.AuthState, reply: Auth.AuthReply): (r: SignUp)
    ensures f.password != f.confirm ==>
      r.form == f.(error := PasswordMismatch) && r.auth == auth && r.sent.None? && r.nav.None?
    ensures f.password == f.confirm ==>
      && r.sent.Some? && r.sent.value.email == f.email && r.sent.value.password == f.password
      && !r.form.loading
    ensures f.password == f.confirm && reply.Accepted? ==>
      && r.nav == Some(Navigation(DefaultTarget, false)) && r.form.error == ""
      && r.auth.currentUser == Some(reply.user)
    ensures f.password == f.confirm && !reply.Accepted? ==>
      r.nav.None? && r.auth == auth && r.form.error == CreateFailed
  {
    if f.password != f.confirm then SignUp(f.(error := PasswordMismatch), auth, None, None)
    else
      var reg := Auth.Register(auth, f.email, f.password, None, reply);
      match reg.outcome.result
      case Ok(_) => SignUp(f.(error := "", loading := false), reg.outcome.state, Some(reg.body), Some(Navigation(DefaultTarget, false)))
      case Err(_) => SignUp(f.(error := CreateFailed, loading := false), reg.outcome.state, Some(reg.body), None)
  }

  /** Signing up never sends a name, so the account is named after the
      address's local part; and a successful sign-up opens a dashboard the
      guard lets through. */
  lemma SignUpNamesAccountAfterLocalPart(f: SignUpForm, auth: Auth.AuthState, reply: Auth.AuthReply)
    requires f.password == f.confirm
    ensures Submit(f, auth, reply).sent == Some(Auth.RegisterBody(f.email, f.password, Auth.EmailPrefix(f.email)))
    ensures '@' !in Submit(f, auth, reply).sent.value.name
    ensures IsPrefix(Submit(f, auth, reply).sent.value.name, f.email)
    ensures reply.Accepted? ==>
      Decide(Submit(f, auth, reply).auth.currentUser, Location(DefaultTarget, "")).RenderChildren?
  {
    Auth.EmailPrefixIsLocalPart(f.email);
  }

  /** The page's Google callback: it stores the token and the user but never
      touches the session. */
  function GoogleSignUp(f: SignUpForm, auth: Auth.AuthState, reply: GoogleReply): (r: SignUp)
    ensures r.auth.currentUser == auth.currentUser && r.sent.None?
    ensures reply.GoogleData? && reply.success ==>
      && GetUser(r.auth.store, Auth.UserKeyName) == Some(reply.user)
      && GetText(r.auth.store, Auth.TokenKey) == (if reply.token == "" then None else Some(reply.token))
      && r.nav == Some(Navigation(DefaultTarget, false)) && r.form == f
    ensures !(reply.GoogleData? && reply.success) ==> r.auth == auth && r.nav.None? && r.form.error != ""
  {
    var g := GoogleCallback(auth, reply, false);
    match g.error
    case Some(e) => SignUp(f.(error := e), g.auth, None, g.nav)
    case None => SignUp(f, g.auth, None, g.nav)
  }

  /** Like the sign-in page's, a successful Google sign-up from a signed-out
      session is bounced from the dashboard to the login page until the app
      is reloaded, while a reload would find the stored user. */
  lemma GoogleSignUpBouncesUntilReload(f: SignUpForm, auth: Auth.AuthState, token: string, user: User, message: Option<string>)
    requires auth.currentUser.None?
    ensures var r := GoogleSignUp(f, auth, GoogleData(true, token, user, message));
      && Decide(r.auth.currentUser, Location(DefaultTarget, "")).Redirect?
      && Decide(Auth.Hydrate(Auth.Mount(r.auth.store)).currentUser, Location(DefaultTarget, "")).RenderChildren?
  {
  }
}

=== FILE: seqs.dfy ===
/** Sequence combinators behind `Array.prototype.filter`, `reduce` with
    `+`, and `slice`, with the facts the pages rely on. */
module Seqs {

  /** `s.filter(p)`: the elements satisfying `p`, in their original order. */
  function Filter<T>(s: seq<T>, p: T -> bool): (r: seq<T>)
    ensures |r| <= |s|
    ensures forall x :: x in r ==> x in s && p(x)
    ensures forall i :: 0 <= i < |s| && p(s[i]) ==> s[i] in r
  {
    if |s| == 0 then []
    else if p(s[0]) then [s[0]] + Filter(s[1..], p)
    else Filter(s[1..], p)
  }

  /** `r` can be obtained from `s` by deleting elements, keeping order. */
  predicate IsSubsequence<T(==)>(r: seq<T>, s: seq<T>)
    decreases |s|
  {
    if |r| == 0 then true
    else if |s| == 0 then false
    else if r[0] == s[0] then IsSubsequence(r[1..], s[1..])
    else IsSubsequence(r, s[1..])
  }

  /** A filter keeps the surviving elements in their original order. */
  lemma {:induction false} FilterIsSubsequence<T>(s: seq<T>, p: T -> bool)
    ensures IsSubsequence(Filter(s, p), s)
  {
    if |s| > 0 {
      FilterIsSubsequence(s[1..], p);
      var rest := Filter(s[1..], p);
      if p(s[0]) {
        assert Filter(s, p) == [s[0]] + rest;
        assert ([s[0]] + rest)[1..] == rest;
      } else {
        SubsequenceDropHead(rest, s);
      }
    }
  }

  /** A subsequence of the tail is a subsequence of the whole. */
  lemma {:induction false} SubsequenceDropHead<T>(r: seq<T>, s: seq<T>)
    requires |s| > 0 && IsSubsequence(r, s[1..])
    ensures IsSubsequence(r, s)
    decreases |s|, 0
  {
    if |r| > 0 && r[0] == s[0] {
      SubsequenceOfTailTail(r, s[1..]);
    }
  }

  /** Dropping the head of `r` keeps it a subsequence. */
  lemma {:induction false} SubsequenceOfTailTail<T>(r: seq<T>, s: seq<T>)
    requires |r| > 0 && IsSubsequence(r, s)
    ensures IsSubsequence(r[1..], s)
    decreases |s|, 1
  {
    if r[0] == s[0] {
      if |r| > 1 {
        SubsequenceOfTailTail(r[1..], s[1..]);
        SubsequenceDropHead(r[1..], s);
      }
    } else {
      SubsequenceOfTailTail(r, s[1..]);
      SubsequenceDropHead(r[1..], s);
    }
  }

  /** Filtering distributes over concatenation. Together with the contract
      of `Filter` this pins the result down: the filtered list of a
      concatenation is the filtered first part followed by the filtered
      second part. */
  lemma {:induction false} FilterConcat<T>(a: seq<T>, b: seq<T>, p: T -> bool)
    ensures Filter(a + b, p) == Filter(a, p) + Filter(b, p)
  {
    if |a| > 0 {
      assert (a + b)[1..] == a[1..] + b;
      FilterConcat(a[1..], b, p);
    } else {
      assert a + b == b;
    }
  }

  /** A predicate that holds everywhere filters nothing out. */
  lemma {:induction false} FilterAll<T>(s: seq<T>, p: T -> bool)
    requires forall x :: x in s ==> p(x)
    ensures Filter(s, p) == s
  {
    if |s| > 0 {
      FilterAll(s[1..], p);
    }
  }

  /** Filtering with a predicate that implies another keeps fewer elements. */
  lemma {:induction false} FilterStronger<T>(s: seq<T>, p: T -> bool, q: T -> bool)
    requires forall x :: p(x) ==> q(x)
    ensures |Filter(s, p)| <= |Filter(s, q)|
  {
    if |s| > 0 {
      FilterStronger(s[1..], p, q);
    }
  }

  /** Filtering by two mutually exclusive predicates: the two results
      together are no longer than the list. */
  lemma {:induction false} FilterDisjoint<T>(s: seq<T>, p: T -> bool, q: T -> bool)
    requires forall x :: !(p(x) && q(x))
    ensures |Filter(s, p)| + |Filter(s, q)| <= |s|
  {
    if |s| > 0 {
      FilterDisjoint(s[1..], p, q);
    }
  }

  /** Filtering twice by the same predicate is filtering once. */
  lemma {:induction false} FilterIdempotent<T>(s: seq<T>, p: T -> bool)
    ensures Filter(Filter(s, p), p) == Filter(s, p)
  {
    FilterAll(Filter(s, p), p);
  }

  /** Filtering by two predicates that agree everywhere gives the same list. */
  lemma {:induction false} FilterExtensional<T>(s: seq<T>, p: T -> bool, q: T -> bool)
    requires forall x :: p(x) == q(x)
    ensures Filter(s, p) == Filter(s, q)
  {
    if |s| > 0 {
      FilterExtensional(s[1..], p, q);
    }
  }

  /** The test that holds where either of two tests holds. */
  function Either<T(!new)>(p: T -> bool, q: T -> bool): (r: T -> bool)
    ensures forall x :: r(x) == (p(x) || q(x))
  {
    (x: T) => p(x) || q(x)
  }

  /** Filtering by a disjunction of exclusive tests keeps as many elements
      as the two filters together. */
  lemma {:induction false} FilterSplit<T(!new)>(s: seq<T>, p: T -> bool, q: T -> bool)
    requires forall x :: !(p(x) && q(x))
    ensures |Filter(s, Either(p, q))| == |Filter(s, p)| + |Filter(s, q)|
  {
    if |s| > 0 {
      FilterSplit(s[1..], p, q);
    }
  }

  /** A subsequence of a list without repeats has no repeats. */
  lemma {:induction false} SubsequenceDistinct<T>(r: seq<T>, s: seq<T>)
    requires IsSubsequence(r, s)
    requires forall i, j :: 0 <= i < j < |s| ==> s[i] != s[j]
    ensures forall i, j :: 0 <= i < j < |r| ==> r[i] != r[j]
    decreases |s|
  {
    if |r| > 0 && |s| > 0 {
      assert forall i, j :: 0 <= i < j < |s[1..]| ==> s[1..][i] != s[1..][j] by {
        forall i, j | 0 <= i < j < |s[1..]|
          ensures s[1..][i] != s[1..][j]
        {
          assert s[1..][i] == s[i + 1] && s[1..][j] == s[j + 1];
        }
      }
      if r[0] == s[0] {
        SubsequenceDistinct(r[1..], s[1..]);
        SubsequenceMembers(r[1..], s[1..]);
        forall j | 0 < j < |r|
          ensures r[0] != r[j]
        {
          assert r[j] == r[1..][j - 1];
          assert r[j] in s[1..];
          var k :| 0 <= k < |s[1..]| && s[1..][k] == r[j];
          assert s[k + 1] == r[j];
        }
        forall i, j | 0 < i < j < |r|
          ensures r[i] != r[j]
        {
          assert r[i] == r[1..][i - 1] && r[j] == r[1..][j - 1];
        }
      } else {
        SubsequenceDistinct(r, s[1..]);
      }
    }
  }

  /** Every element of a subsequence is an element of the whole. */
  lemma {:induction false} SubsequenceMembers<T>(r: seq<T>, s: seq<T>)
    requires IsSubsequence(r, s)
    ensures forall x :: x in r ==> x in s
    decreases |s|
  {
    if |r| > 0 && |s| > 0 {
      if r[0] == s[0] {
        SubsequenceMembers(r[1..], s[1..]);
        assert forall x :: x in r ==> x == r[0] || x in r[1..];
      } else {
        SubsequenceMembers(r, s[1..]);
      }
    }
  }

  /** `xs.reduce((a, x) => a + x, 0)`. */
  function Sum(xs: seq<int>): int {
    if |xs| == 0 then 0 else xs[0] + Sum(xs[1..])
  }

  /** Changing one entry changes the sum by the difference. */
  lemma {:induction false} SumUpdate(xs: seq<int>, i: int, v: int)
    requires 0 <= i < |xs|
    ensures Sum(xs[i := v]) == Sum(xs) - xs[i] + v
  {
    if i > 0 {
      assert xs[i := v][1..] == xs[1..][i - 1 := v];
      SumUpdate(xs[1..], i - 1, v);
    }
  }

  /** A sum of non-negative entries is non-negative. */
  lemma {:induction false} SumNonNegative(xs: seq<int>)
    requires forall k :: 0 <= k < |xs| ==> xs[k] >= 0
    ensures Sum(xs) >= 0
  {
    if |xs| > 0 {
      SumNonNegative(xs[1..]);
    }
  }

  /** `s.slice(0, n)`: the first `n` elements, or all of them. */
  function Take<T>(s: seq<T>, n: nat): (r: seq<T>)
    ensures |r| <= n && |r| <= |s|
    ensures |s| <= n ==> r == s
    ensures n <= |s| ==> |r| == n
    ensures forall i :: 0 <= i < |r| ==> r[i] == s[i]
  {
    if |s| <= n then s else s[..n]
  }
}

=== FILE: sidebar.dfy ===
/** The navigation sidebar (src/components/Sidebar.js). */
module Sidebar {
  import opened Wrappers
  import opened Entities

  datatype NavItem = NavItem(id: string, caption: string, path: string, icon: string)

  /** The items everybody sees, in order. */
  const PublicItems: seq<NavItem> := [
    NavItem("questions", "All Posts", "/incidents", "bi-list-ul"),
    NavItem("submit", "Submit Post", "/submit-incident", "bi-plus-circle")
  ]

  /** The items only a signed-in user sees, in order. */
  const MemberItems: seq<NavItem> := [
    NavItem("mytickets", "My Posts", "/my-queries", "bi-ticket"),
    NavItem("settings", "My Profile", "/profile", "bi-gear")
  ]

  /** `navItems`: the public items, then the member items when somebody is
      signed in. */
  function NavItems(currentUser: Option<User>): (r: seq<NavItem>)
    ensures |r| >= 2 && r[..2] == PublicItems
    ensures |r| == 4 <==> currentUser.Some?
    ensures |r| == 2 <==> currentUser.None?
    ensures currentUser.Some? ==> r[2..] == MemberItems
  {
    if currentUser.Some? then PublicItems + MemberItems else PublicItems
  }

  /** An item is highlighted when the page names it or the browser is on
      its path. */
  function IsActive(activePage: Option<string>, currentPath: string, item: NavItem): (r: bool)
    ensures activePage == Some(item.id) ==> r
    ensures currentPath == item.path ==> r
    ensures activePage.None? ==> (r <==> currentPath == item.path)
    ensures r ==> activePage == Some(item.id) || currentPath == item.path
  {
    activePage == Some(item.id) || currentPath == item.path
  }

  /** Ids and paths are pairwise distinct, so without an `activePage` at
      most one item is highlighted. */
  lemma NavItemsDistinct(currentUser: Option<User>, currentPath: string)
    ensures forall i, j :: 0 <= i < j < |NavItems(currentUser)| ==>
      NavItems(currentUser)[i].id != NavItems(currentUser)[j].id
      && NavItems(currentUser)[i].path != NavItems(currentUser)[j].path
    ensures forall i, j :: 0 <= i < j < |NavItems(currentUser)| ==>
      !(IsActive(None, currentPath, NavItems(currentUser)[i]) && IsActive(None, currentPath, NavItems(currentUser)[j]))
  {
  }
}

=== FILE: storage.dfy ===
/** The browser's key-value stores (`localStorage`, `sessionStorage`) as a
    map from key to stored value. A stored user is kept as the value itself:
    serialising a plain data object and parsing it back gives it back. */
module Storage {
  import opened Wrappers
  import opened Entities

  datatype Stored = Text(s: string) | Json(user: User)

  type Store = map<string, Stored>

  /** `if (store.getItem(key))`: the key holds a non-empty string. */
  function Present(store: Store, key: string): (r: bool)
    ensures r <==> GetText(store, key).Some? || GetUser(store, key).Some?
    ensures key !in store ==> !r
  {
    key in store && (store[key].Json? || store[key].s != "")
  }

  /** The text stored under `key` when it is a non-empty string. */
  function GetText(store: Store, key: string): (r: Option<string>)
    ensures r.Some? ==> key in store && store[key] == Text(r.value) && r.value != ""
    ensures r.None? ==> key !in store || store[key].Json? || store[key].s == ""
  {
    if key in store && store[key].Text? && store[key].s != "" then Some(store[key].s) else None
  }

  /** The user stored under `key`, if a user was stored there. */
  function GetUser(store: Store, key: string): (r: Option<User>)
    ensures r.Some? <==> key in store && store[key].Json?
    ensures r.Some? ==> store[key] == Json(r.value)
  {
    if key in store && store[key].Json? then Some(store[key].user) else None
  }
}

=== FILE: submit_incident.dfy ===
/** The post submission form (src/pages/SubmitIncident.js): the per-type
    fields and their reset when the type changes, tags, poll options,
    validation, the request body, and the show-once guidance dialog. */
module SubmitIncident {
  import opened Wrappers
  import opened Text
  import opened Entities
  import opened Seqs
  import opened Storage
  import opened Api

  const MaxTags: nat := 5
  const MinOptions: nat := 2
  const MaxOptions: nat := 6
  const DefaultProvider: string := "aws"
  const DefaultUrgency: string := "medium"
  const DefaultCategory: string := "performance"
  const DefaultDuration: string := "7"
  const GuideFlag: string := "hideCloudModal"
  const ListPath: string := "/incidents"
  const CreateFailed: string := "Failed to create incident"

  const NoQuestion: string := "Please provide a poll question"
  const TooFewOptions: string := "Please provide at least two options"
  const NoTitle: string := "Please provide a title"
  const NoStart: string := "Please provide when the issue started"
  const NoService: string := "Please provide the affected service"
  const NoHeadline: string := "Please provide a headline"
  const NoTitleOrDescription: string := "Please provide both a title and description"

  datatype SubmitForm = SubmitForm(
    kind: string,
    title: string,
    description: string,
    tags: seq<string>,
    tagInput: string,
    provider: string,
    loading: bool,
    error: Option<string>,
    timestamp: string,
    service: string,
    urgency: string,
    components: string,
    category: string,
    region: string,
    newsDate: string,
    sourceUrl: string,
    excerpt: string,
    question: string,
    options: seq<string>,
    duration: string,
    step: int,
    showGuide: bool)

  /** The form as first rendered, before its effects ran. */
  function Initial(): (f: SubmitForm)
    ensures f.kind == "question" && f.provider == DefaultProvider && f.options == ["", ""] && f.step == 1
  {
    SubmitForm("question", "", "", [], "", DefaultProvider, false, None,
               "", "", DefaultUrgency, "", DefaultCategory, "",
               "", "", "",
               "", ["", ""], DefaultDuration, 1, false)
  }

  /** The type-change effect: clear the common fields, then the new type's
      own fields. Fields of the other types are left as they were. */
  function Reset(f: SubmitForm): (r: SubmitForm)
    ensures r.kind == f.kind && r.title == "" && r.description == "" && r.tags == [] && r.provider == DefaultProvider
    ensures f.kind == "issue" ==>
      && r.timestamp == "" && r.service == "" && r.urgency == DefaultUrgency
      && r.components == "" && r.category == DefaultCategory && r.region == "" && r.step == 1
    ensures f.kind != "issue" ==>
      r.timestamp == f.timestamp && r.service == f.service && r.step == f.step
    ensures f.kind == "news" ==> r.newsDate == "" && r.sourceUrl == "" && r.excerpt == ""
    ensures f.kind == "poll" ==> r.question == "" && r.options == ["", ""] && r.duration == DefaultDuration
    ensures f.kind != "poll" ==> r.question == f.question && r.options == f.options
    ensures f.kind != "issue" ==>
      r.urgency == f.urgency && r.components == f.components && r.category == f.category && r.region == f.region
    ensures f.kind != "news" ==> r.newsDate == f.newsDate && r.sourceUrl == f.sourceUrl && r.excerpt == f.excerpt
    ensures f.kind != "poll" ==> r.duration == f.duration
    ensures r.tagInput == f.tagInput && r.showGuide == f.showGuide
    ensures r.error == f.error && r.loading == f.loading
  {
    var common := f.(title := "", description := "", tags := [], provider := DefaultProvider);
    if f.kind == "issue" then
      common.(timestamp := "", service := "", urgency := DefaultUrgency, components := "",
              category := DefaultCategory, region := "", step := 1)
    else if f.kind == "news" then common.(newsDate := "", sourceUrl := "", excerpt := "")
    else if f.kind == "poll" then common.(question := "", options := ["", ""], duration := DefaultDuration)
    else common
  }

  /** Choosing a type: the effect runs only when the type actually changes. */
  function SetKind(f: SubmitForm, kind: string): (r: SubmitForm)
    ensures r.kind == kind
    ensures kind == f.kind ==> r == f
    ensures kind != f.kind ==> r == Reset(f.(kind := kind))
  {
    if kind == f.kind then f else Reset(f.(kind := kind))
  }

  /** `options.filter(opt => opt.trim())`. */
  function FilledOptions(options: seq<string>): (r: seq<string>)
    ensures forall o :: o in r ==> o in options && !IsBlank(o)
    ensures forall i :: 0 <= i < |options| && !IsBlank(options[i]) ==> options[i] in r
  {
    Filter(options, (o: string) => !IsBlank(o))
  }

  /** The checks `handleSubmit` makes before sending anything, in order;
      the message of the first that fails. */
  function Validate(f: SubmitForm): (e: Option<string>)
    ensures f.kind == "poll" ==>
      (e.None? <==> !IsBlank(f.question) && |FilledOptions(f.options)| >= MinOptions)
    ensures f.kind == "issue" ==>
      (e.None? <==> !IsBlank(f.title) && (f.step == 1 ==> f.timestamp != "" && !IsBlank(f.service)))
    ensures f.kind == "news" ==> (e.None? <==> !IsBlank(f.title))
    ensures f.kind !in {"poll", "issue", "news"} ==>
      (e.None? <==> !IsBlank(f.title) && !IsBlank(f.description))
  {
    if f.kind == "poll" then
      if IsBlank(f.question) then Some(NoQuestion)
      else if |FilledOptions(f.options)| < MinOptions then Some(TooFewOptions)
      else None
    else if f.kind == "issue" then
      if IsBlank(f.title) then Some(NoTitle)
      else if f.step == 1 && f.timestamp == "" then Some(NoStart)
      else if f.step == 1 && IsBlank(f.service) then Some(NoService)
      else None
    else if f.kind == "news" then
      if IsBlank(f.title) then Some(NoHeadline) else None
    else if IsBlank(f.title) || IsBlank(f.description) then Some(NoTitleOrDescription)
    else None
  }

  /** The request body for a form that passed validation. */
  function BuildPayload(f: SubmitForm): (r: Payload)
    ensures r.kind == f.kind && r.provider == f.provider && r.tags == f.tags
    ensures f.kind == "poll" ==>
      && r.title == f.question && r.description.None?
      && r.poll == Some(PollFields(f.question, FilledOptions(f.options), f.duration))
      && r.issue.None? && r.news.None?
    ensures f.kind != "poll" ==> r.title == f.title && r.description == Some(f.description) && r.poll.None?
    ensures r.issue.Some? <==> f.kind == "issue"
    ensures r.news.Some? <==> f.kind == "news"
    ensures r.issue.Some? ==>
      r.issue.value == IssueFields(f.timestamp, f.service, f.urgency, f.components, f.category, f.region)
    ensures r.news.Some? ==> r.news.value == NewsFields(f.newsDate, f.sourceUrl, f.excerpt)
  {
    if f.kind == "poll" then
      Payload(f.kind, f.provider, f.tags, f.question, None,
              Some(PollFields(f.question, FilledOptions(f.options), f.duration)), None, None)
    else
      var issue := if f.kind == "issue" then Some(IssueFields(f.timestamp, f.service, f.urgency, f.components, f.category, f.region)) else None;
      var news := if f.kind == "news" then Some(NewsFields(f.newsDate, f.sourceUrl, f.excerpt)) else None;
      Payload(f.kind, f.provider, f.tags, f.title, Some(f.description), None, issue, news)
  }

  /** A poll that passes validation sends at least two options, all filled,
      in the order they were typed. */
  lemma ValidPollSendsFilledOptions(f: SubmitForm)
    requires f.kind == "poll" && Validate(f).None?
    ensures |BuildPayload(f).poll.value.options| >= MinOptions
    ensures IsSubsequence(BuildPayload(f).poll.value.options, f.options)
    ensures forall o :: o in BuildPayload(f).poll.value.options ==> !IsBlank(o)
  {
    FilterIsSubsequence(f.options, (o: string) => !IsBlank(o));
  }

  /** A form just reset by a type change never passes validation. */
  lemma ResetFormIsInvalid(f: SubmitForm, kind: string)
    requires kind != f.kind
    ensures Validate(SetKind(f, kind)).Some?
  {
    assert IsBlank("") by { assert Trim("") == ""; }
  }

  /** Where submitting went: the form, the request, and the page opened. */
  datatype Submitted = Submitted(form: SubmitForm, call: Option<Call>, nav: Option<string>)

  /** `handleSubmit`: refuse with the first failing check's message and no
      request; otherwise send the body and open the list on success or show
      the error. */
  function Submit(f: SubmitForm, resp: Response<Post>): (r: Submitted)
    ensures Validate(f).Some? ==> r == Submitted(f.(error := Validate(f)), None, None)
    ensures Validate(f).None? ==> r.call == Some(CreateIncident(BuildPayload(f))) && !r.form.loading
    ensures Validate(f).None? && resp.Success? ==> r.nav == Some(ListPath) && r.form.error.None?
    ensures Validate(f).None? && resp.Failure? ==>
      r.nav.None? && r.form.error == Some(OrElse(resp.message, CreateFailed))
  {
    match Validate(f)
    case Some(e) => Submitted(f.(error := Some(e)), None, None)
    case None =>
      var call := Some(CreateIncident(BuildPayload(f)));
      match resp
      case Success(_) => Submitted(f.(error := None, loading := false), call, Some(ListPath))
      case Failure(m) => Submitted(f.(error := Some(OrElse(m, CreateFailed)), loading := false), call, None)
  }

  /** The tag list's invariant: at most five tags, distinct, each trimmed
      and non-empty. */
  predicate TagsOk(tags: seq<string>) {
    && |tags| <= MaxTags
    && (forall i, j :: 0 <= i < j < |tags| ==> tags[i] != tags[j])
    && (forall t :: t in tags ==> t != "" && Trim(t) == t)
  }

  /** `handleTagInputKeyDown`: Enter with a non-blank input adds the trimmed
      input if there is room and it is new; the input is cleared either way.
      Any other key changes nothing. */
  function TagKeyDown(f: SubmitForm, key: string): (r: SubmitForm)
    ensures !(key == "Enter" && !IsBlank(f.tagInput)) ==> r == f
    ensures key == "Enter" && !IsBlank(f.tagInput) ==>
      && r == f.(tags := r.tags, tagInput := "")
      && (|f.tags| < MaxTags && Trim(f.tagInput) !in f.tags ==> r.tags == f.tags + [Trim(f.tagInput)])
      && (|f.tags| >= MaxTags || Trim(f.tagInput) in f.tags ==> r.tags == f.tags)
  {
    if key == "Enter" && !IsBlank(f.tagInput) then
      var tag := Trim(f.tagInput);
      if |f.tags| < MaxTags && tag !in f.tags then f.(tags := f.tags + [tag], tagInput := "")
      else f.(tagInput := "")
    else f
  }

  /** `removeTag(t)`: drop every copy of `t`, keeping the rest in order. */
  function RemoveTag(f: SubmitForm, t: string): (r: SubmitForm)
    ensures t !in r.tags
    ensures forall u :: u in f.tags && u != t ==> u in r.tags
    ensures r == f.(tags := r.tags)
  {
    f.(tags := Filter(f.tags, (u: string) => u != t))
  }

  /** Enter keeps the tag invariant: a tag it adds is trimmed, non-blank
      and new, and it adds one only below the limit. */
  lemma TagKeyDownKeepsTagsOk(f: SubmitForm, key: string)
    requires TagsOk(f.tags)
    ensures TagsOk(TagKeyDown(f, key).tags)
  {
    if key == "Enter" && !IsBlank(f.tagInput) {
      TrimIdempotent(f.tagInput);
    }
  }

  /** Removing a tag keeps the tag invariant and the order of the others. */
  lemma RemoveTagKeepsTagsOk(f: SubmitForm, t: string)
    requires TagsOk(f.tags)
    ensures TagsOk(RemoveTag(f, t).tags)
    ensures IsSubsequence(RemoveTag(f, t).tags, f.tags)
  {
    FilterIsSubsequence(f.tags, (u: string) => u != t);
    SubsequenceDistinct(Filter(f.tags, (u: string) => u != t), f.tags);
  }

  /** Adding and removing tags, and changing the type, keep the tag
      invariant; removal keeps the order of the others. */
  lemma TagOperationsKeepTagsOk(f: SubmitForm, key: string, t: string, kind: string)
    requires TagsOk(f.tags)
    ensures TagsOk(TagKeyDown(f, key).tags)
    ensures TagsOk(RemoveTag(f, t).tags)
    ensures TagsOk(SetKind(f, kind).tags)
    ensures IsSubsequence(RemoveTag(f, t).tags, f.tags)
  {
    TagKeyDownKeepsTagsOk(f, key);
    RemoveTagKeepsTagsOk(f, t);
  }

  /** The poll-option list's invariant. */
  predicate OptionsOk(options: seq<string>) {
    MinOptions <= |options| <= MaxOptions
  }

  /** `addOption`: one more empty option, while there are fewer than six. */
  function AddOption(f: SubmitForm): (r: SubmitForm)
    ensures |f.options| < MaxOptions ==> r == f.(options := f.options + [""])
    ensures |f.options| >= MaxOptions ==> r == f
  {
    if |f.options| < MaxOptions then f.(options := f.options + [""]) else f
  }

  /** `handleOptionChange(index, value)` on a rendered option. */
  function OptionChange(f: SubmitForm, index: int, value: string): (r: SubmitForm)
    requires 0 <= index < |f.options|
    ensures |r.options| == |f.options| && r.options[index] == value
    ensures forall i :: 0 <= i < |f.options| && i != index ==> r.options[i] == f.options[i]
    ensures r == f.(options := r.options)
  {
    f.(options := f.options[index := value])
  }

  /** Every option handler and every type change keeps between two and six
      options. */
  lemma OptionOperationsKeepOptionsOk(f: SubmitForm, index: int, value: string, kind: string)
    requires OptionsOk(f.options)
    ensures OptionsOk(AddOption(f).options)
    ensures 0 <= index < |f.options| ==> OptionsOk(OptionChange(f, index, value).options)
    ensures OptionsOk(SetKind(f, kind).options)
    ensures OptionsOk(Initial().options)
  {
  }

  /** The mount effect of the guidance dialog: shown unless dismissed for
      good earlier. */
  function MountGuide(f: SubmitForm, store: Store): (r: SubmitForm)
    ensures r.showGuide <==> !Present(store, GuideFlag)
    ensures r == f.(showGuide := r.showGuide)
  {
    f.(showGuide := !Present(store, GuideFlag))
  }

  /** The dialog's two buttons: "Start Posting" only closes it; "Don't Show
      Again" also records the choice. */
  datatype Dismissed = Dismissed(form: SubmitForm, store: Store)

  function StartPosting(f: SubmitForm, store: Store): (r: Dismissed)
    ensures !r.form.showGuide && r.store == store
  {
    Dismissed(f.(showGuide := false), store)
  }

  function DontShowAgain(f: SubmitForm, store: Store): (r: Dismissed)
    ensures !r.form.showGuide
    ensures r.store == store[GuideFlag := Text("true")]
  {
    Dismissed(f.(showGuide := false), store[GuideFlag := Text("true")])
  }

  /** After "Don't Show Again" the dialog does not come back on any later
      visit; after "Start Posting" it comes back on the next one. */
  lemma GuideShownUntilDismissedForGood(f: SubmitForm, g: SubmitForm, store: Store)
    requires !Present(store, GuideFlag)
    ensures MountGuide(g, DontShowAgain(f, store).store).showGuide == false
    ensures MountGuide(g, StartPosting(f, store).store).showGuide == true
  {
  }
}

=== FILE: text.dfy ===
/** String operations the pages rely on: ECMAScript `trim`, ASCII case
    folding, `includes`, `split`/`join` on one character, and the
    "truthy string or default" idiom `s || d`. */
module Text {
  import opened Wrappers

  /** A code point that `String.prototype.trim` removes (white space and
      line terminators of ECMAScript). */
  predicate IsWhite(c: char) {
    var n := c as int;
    n == 0x09 || n == 0x0A || n == 0x0B || n == 0x0C || n == 0x0D || n == 0x20
    || n == 0xA0 || n == 0x1680 || (0x2000 <= n <= 0x200A) || n == 0x2028
    || n == 0x2029 || n == 0x202F || n == 0x205F || n == 0x3000 || n == 0xFEFF
  }

  /** Drops leading white space: the result is the longest suffix of `s`
      that does not start with white space. */
  function TrimStart(s: string): (r: string)
    ensures |r| <= |s| && r == s[|s| - |r|..]
    ensures r == [] || !IsWhite(r[0])
    ensures forall i :: 0 <= i < |s| - |r| ==> IsWhite(s[i])
  {
    if |s| > 0 && IsWhite(s[0]) then TrimStart(s[1..]) else s
  }

  /** Drops trailing white space: the result is the longest prefix of `s`
      that does not end with white space. */
  function TrimEnd(s: string): (r: string)
    ensures |r| <= |s| && r == s[..|r|]
    ensures r == [] || !IsWhite(r[|r| - 1])
    ensures forall i :: |r| <= i < |s| ==> IsWhite(s[i])
  {
    if |s| > 0 && IsWhite(s[|s| - 1]) then TrimEnd(s[..|s| - 1]) else s
  }

  /** `s.trim()`. */
  function Trim(s: string): string {
    TrimEnd(TrimStart(s))
  }

  /** `!s.trim()`: the string is empty once trimmed. */
  predicate IsBlank(s: string) {
    Trim(s) == ""
  }

  /** A string is blank exactly when every character of it is white space. */
  lemma BlankIffAllWhite(s: string)
    ensures IsBlank(s) <==> forall i :: 0 <= i < |s| ==> IsWhite(s[i])
  {
    var a := TrimStart(s);
    if IsBlank(s) {
      assert a == [];
    } else {
      var r := Trim(s);
      assert r == a[..|r|] && r != [];
      assert a != [] && !IsWhite(a[0]);
      assert a[0] == s[|s| - |a|];
    }
  }

  /** Trimming is idempotent. */
  lemma TrimIdempotent(s: string)
    ensures Trim(Trim(s)) == Trim(s)
  {
    var r := Trim(s);
    if r != [] {
      assert !IsWhite(r[0]) && !IsWhite(r[|r| - 1]);
      assert TrimStart(r) == r;
      assert TrimEnd(r) == r;
    }
  }

  /** JavaScript truthiness of an optional string: present and non-empty. */
  predicate Truthy(o: Option<string>) {
    o.Some? && o.value != ""
  }

  /** `o || d` for an optional string `o`. */
  function OrElse(o: Option<string>, d: string): (r: string)
    ensures Truthy(o) ==> r == o.value
    ensures !Truthy(o) ==> r == d
  {
    if Truthy(o) then o.value else d
  }

  /** ASCII lower-casing of one character. */
  function LowerChar(c: char): char {
    if 'A' <= c <= 'Z' then (c as int + 32) as char else c
  }

  /** ASCII upper-casing of one character. */
  function UpperChar(c: char): char {
    if 'a' <= c <= 'z' then (c as int - 32) as char else c
  }

  /** `s.toLowerCase()`, restricted to ASCII letters. */
  function Lower(s: string): (r: string)
    ensures |r| == |s|
    ensures forall i :: 0 <= i < |s| ==> r[i] == LowerChar(s[i])
  {
    seq(|s|, i requires 0 <= i < |s| => LowerChar(s[i]))
  }

  /** Lower-casing twice is lower-casing once. */
  lemma LowerIdempotent(s: string)
    ensures Lower(Lower(s)) == Lower(s)
  {
  }

  /** Lower-casing commutes with concatenation. */
  lemma LowerConcat(a: string, b: string)
    ensures Lower(a + b) == Lower(a) + Lower(b)
  {
  }

  /** `t` is a prefix of `s`. */
  predicate IsPrefix(t: string, s: string) {
    |t| <= |s| && s[..|t|] == t
  }

  /** `s.includes(t)`: `t` occurs somewhere in `s`. */
  predicate Contains(s: string, t: string)
    decreases |s|
  {
    IsPrefix(t, s) || (|s| > 0 && Contains(s[1..], t))
  }

  /** `t` occurs in `s` starting at index `i`. */
  predicate OccursAt(s: string, t: string, i: int) {
    0 <= i && i + |t| <= |s| && s[i..i + |t|] == t
  }

  /** `Contains` means "occurs at some index". */
  lemma {:induction false} ContainsIffOccurs(s: string, t: string)
    ensures Contains(s, t) <==> exists i :: OccursAt(s, t, i)
  {
    if IsPrefix(t, s) {
      assert OccursAt(s, t, 0);
    } else if |s| == 0 {
      assert forall i :: !OccursAt(s, t, i);
    } else {
      ContainsIffOccurs(s[1..], t);
      if exists i :: OccursAt(s, t, i) {
        var i :| OccursAt(s, t, i);
        assert i != 0;
        assert s[1..][i - 1..i - 1 + |t|] == s[i..i + |t|];
        assert OccursAt(s[1..], t, i - 1);
      }
      if Contains(s[1..], t) {
        var j :| OccursAt(s[1..], t, j);
        assert s[1..][j..j + |t|] == s[j + 1..j + 1 + |t|];
        assert OccursAt(s, t, j + 1);
      }
    }
  }

  /** Every string contains the empty string. */
  lemma ContainsEmpty(s: string)
    ensures Contains(s, "")
  {
    assert IsPrefix("", s);
  }

  /** Nothing non-empty occurs in the empty string. */
  lemma EmptyContainsOnlyEmpty(t: string)
    requires t != ""
    ensures !Contains("", t)
  {
  }

  /** Number of occurrences of `d` in `s`. */
  function CountChar(s: string, d: char): nat {
    if |s| == 0 then 0 else (if s[0] == d then 1 else 0) + CountChar(s[1..], d)
  }

  /** `s.split(d)` for a one-character separator: the maximal runs between
      separators, empty runs included. */
  function Split(s: string, d: char): (r: seq<string>)
    ensures |r| >= 1
    ensures forall k :: 0 <= k < |r| ==> d !in r[k]
  {
    if |s| == 0 then [""]
    else
      var rest := Split(s[1..], d);
      if s[0] == d then [""] + rest
      else [[s[0]] + rest[0]] + rest[1..]
  }

  /** `parts.join(d)`. */
  function Join(parts: seq<string>, d: char): string
    requires |parts| >= 1
  {
    if |parts| == 1 then parts[0] else parts[0] + [d] + Join(parts[1..], d)
  }

  /** Joining the first part onto the rest. */
  lemma JoinCons(head: string, tail: seq<string>, d: char)
    requires |tail| >= 1
    ensures Join([head] + tail, d) == head + [d] + Join(tail, d)
  {
    assert ([head] + tail)[1..] == tail;
  }

  /** Extending the first part extends the joined string. */
  lemma JoinExtendHead(c: char, parts: seq<string>, d: char)
    requires |parts| >= 1
    ensures Join([[c] + parts[0]] + parts[1..], d) == [c] + Join(parts, d)
  {
    if |parts| > 1 {
      JoinCons([c] + parts[0], parts[1..], d);
    }
  }

  /** Joining the pieces of a split with the same separator gives back the
      original string. */
  lemma {:induction false} SplitJoin(s: string, d: char)
    ensures Join(Split(s, d), d) == s
  {
    if |s| > 0 {
      var rest := Split(s[1..], d);
      SplitJoin(s[1..], d);
      if s[0] == d {
        JoinCons("", rest, d);
        assert [d] + s[1..] == s;
      } else {
        JoinExtendHead(s[0], rest, d);
        assert [s[0]] + s[1..] == s;
      }
    }
  }

  /** A split has one more piece than there are separators. */
  lemma {:induction false} SplitCount(s: string, d: char)
    ensures |Split(s, d)| == CountChar(s, d) + 1
  {
    if |s| > 0 {
      SplitCount(s[1..], d);
    }
  }

  /** Splitting a string with no separator in its first part. */
  lemma {:induction false} SplitAfter(a: string, b: string, d: char)
    requires d !in a
    ensures Split(a + [d] + b, d) == [a] + Split(b, d)
  {
    if |a| == 0 {
      assert a + [d] + b == [d] + b;
      assert ([d] + b)[1..] == b;
    } else {
      assert (a + [d] + b)[1..] == a[1..] + [d] + b;
      SplitAfter(a[1..], b, d);
      assert [a[0]] + a[1..] == a;
    }
  }

  /** A string without the separator splits into itself. */
  lemma {:induction false} SplitNone(a: string, d: char)
    requires d !in a
    ensures Split(a, d) == [a]
  {
    if |a| > 0 {
      SplitNone(a[1..], d);
      assert [a[0]] + a[1..] == a;
    }
  }

  /** Splitting a join of separator-free parts gives the parts back: the
      converse of `SplitJoin`. */
  lemma {:induction false} SplitOfJoin(parts: seq<string>, d: char)
    requires |parts| >= 1
    requires forall k :: 0 <= k < |parts| ==> d !in parts[k]
    ensures Split(Join(parts, d), d) == parts
  {
    if |parts| == 1 {
      SplitNone(parts[0], d);
    } else {
      SplitOfJoin(parts[1..], d);
      SplitAfter(parts[0], Join(parts[1..], d), d);
      assert [parts[0]] + parts[1..] == parts;
    }
  }
}

=== FILE: threads.dfy ===
/** Comment threads on the post-list pages (src/pages/IncidentsList.js,
    src/pages/MyQueries.js): a list of comments, each with its replies, the
    drafts being typed, and the comment a reply is aimed at. */
module Threads {
  import opened Wrappers
  import opened Text
  import opened Entities
  import opened Api

  /** The post whose comments are open, its comments, the comment and reply
      drafts, and the comment being replied to. */
  datatype Thread = Thread(
    incident: Option<Post>,
    comments: seq<Comment>,
    commentText: string,
    replyText: string,
    replyingTo: Option<string>)

  /** `comments.map(c => c._id === target ? {...c, replies: [...replies, reply]} : c)`. */
  function AppendReply(comments: seq<Comment>, target: string, reply: Reply): (r: seq<Comment>)
    ensures |r| == |comments|
    ensures forall i :: 0 <= i < |comments| && comments[i].id != target ==> r[i] == comments[i]
    ensures forall i :: 0 <= i < |comments| && comments[i].id == target ==>
      r[i] == comments[i].(replies := comments[i].replies + [reply])
  {
    seq(|comments|, i requires 0 <= i < |comments| =>
      if comments[i].id == target then comments[i].(replies := comments[i].replies + [reply]) else comments[i])
  }

  /** How many replies a list of comments holds. */
  function ReplyCount(comments: seq<Comment>): nat {
    if |comments| == 0 then 0 else |comments[0].replies| + ReplyCount(comments[1..])
  }

  /** How many comments carry `id`. */
  function Carrying(comments: seq<Comment>, id: string): nat {
    if |comments| == 0 then 0 else (if comments[0].id == id then 1 else 0) + Carrying(comments[1..], id)
  }

  /** Every comment with the target id gets one more reply, and no other
      reply appears or disappears. */
  lemma {:induction false} AppendReplyCount(comments: seq<Comment>, target: string, reply: Reply)
    ensures ReplyCount(AppendReply(comments, target, reply)) == ReplyCount(comments) + Carrying(comments, target)
  {
    if |comments| > 0 {
      AppendReplyCount(comments[1..], target, reply);
      assert AppendReply(comments, target, reply)[1..] == AppendReply(comments[1..], target, reply);
    }
  }

  /** With distinct comment ids, a reply to an existing comment adds exactly
      one reply overall; a reply to an unknown id changes nothing. */
  lemma {:induction false} CarryingDistinct(comments: seq<Comment>, id: string)
    requires forall i, j :: 0 <= i < j < |comments| ==> comments[i].id != comments[j].id
    ensures (exists i :: 0 <= i < |comments| && comments[i].id == id) ==> Carrying(comments, id) == 1
    ensures (forall i :: 0 <= i < |comments| ==> comments[i].id != id) ==> Carrying(comments, id) == 0
  {
    if |comments| > 0 {
      CarryingDistinct(comments[1..], id);
      if comments[0].id == id {
        assert forall i :: 0 <= i < |comments[1..]| ==> comments[1..][i].id != id by {
          forall i | 0 <= i < |comments[1..]|
            ensures comments[1..][i].id != id
          {
            assert comments[1..][i] == comments[i + 1];
          }
        }
      } else {
        if exists i :: 0 <= i < |comments| && comments[i].id == id {
          var i :| 0 <= i < |comments| && comments[i].id == id;
          assert comments[1..][i - 1].id == id;
        }
      }
    }
  }

  /** An unknown target leaves the comments as they were. */
  lemma AppendReplyUnknownTarget(comments: seq<Comment>, target: string, reply: Reply)
    requires forall i :: 0 <= i < |comments| ==> comments[i].id != target
    ensures AppendReply(comments, target, reply) == comments
  {
  }

  /** `handleReply`: aim the reply draft at a comment. */
  function ReplyTo(t: Thread, commentId: string): (r: Thread)
    ensures r.replyingTo == Some(commentId)
    ensures r.(replyingTo := t.replyingTo) == t
  {
    t.(replyingTo := Some(commentId))
  }

  /** Whether a reply can be sent: non-blank text, a target, an open post. */
  function CanReply(t: Thread): (r: bool)
    ensures r ==> t.replyText != "" && t.replyingTo.Some? && t.replyingTo.value != "" && t.incident.Some?
    ensures IsBlank(t.replyText) || t.replyingTo.None? || t.incident.None? ==> !r
    ensures !IsBlank(t.replyText) && Truthy(t.replyingTo) && t.incident.Some? ==> r
  {
    !IsBlank(t.replyText) && Truthy(t.replyingTo) && t.incident.Some?
  }

  /** `handleSubmitReply`: nothing happens unless a reply can be sent; on
      success the reply joins the replies of the target comment and both
      draft and target are cleared; on failure nothing changes. */
  function SubmitReply(t: Thread, resp: Response<Reply>): (r: Handled<Thread>)
    ensures r.call.Some? <==> CanReply(t)
    ensures !CanReply(t) ==> r.state == t
    ensures CanReply(t) ==> r.call == Some(AddReply(t.incident.value.id, t.replyingTo.value, t.replyText))
    ensures CanReply(t) && resp.Success? ==>
      && r.state.comments == AppendReply(t.comments, t.replyingTo.value, resp.data)
      && r.state.replyText == "" && r.state.replyingTo.None?
      && r.state.incident == t.incident && r.state.commentText == t.commentText
    ensures resp.Failure? ==> r.state == t
  {
    if !CanReply(t) then Handled(t, None)
    else
      var call := Some(AddReply(t.incident.value.id, t.replyingTo.value, t.replyText));
      match resp
      case Success(reply) =>
        Handled(t.(comments := AppendReply(t.comments, t.replyingTo.value, reply), replyText := "", replyingTo := None), call)
      case Failure(_) => Handled(t, call)
  }

  /** Sending the comment draft of the open post: on success the new
      comment goes last and the draft is cleared; on failure nothing
      changes. The caller decides whether sending is allowed. */
  function SendComment(t: Thread, resp: Response<Comment>): (r: Handled<Thread>)
    requires t.incident.Some?
    ensures r.call == Some(AddComment(t.incident.value.id, t.commentText))
    ensures resp.Success? ==>
      && r.state.comments == t.comments + [resp.data] && r.state.commentText == ""
      && r.state.(comments := t.comments, commentText := t.commentText) == t
    ensures resp.Failure? ==> r.state == t
  {
    var call := Some(AddComment(t.incident.value.id, t.commentText));
    match resp
    case Success(c) => Handled(t.(comments := t.comments + [c], commentText := ""), call)
    case Failure(_) => Handled(t, call)
  }

  /** A successful reply keeps the comments in order and adds exactly one
      reply when the target id is carried by exactly one comment. */
  lemma ReplyAddsOne(t: Thread, reply: Reply)
    requires CanReply(t)
    requires forall i, j :: 0 <= i < j < |t.comments| ==> t.comments[i].id != t.comments[j].id
    requires exists i :: 0 <= i < |t.comments| && t.comments[i].id == t.replyingTo.value
    ensures var r := SubmitReply(t, Success(reply)).state;
      && |r.comments| == |t.comments|
      && (forall i :: 0 <= i < |t.comments| ==> r.comments[i].id == t.comments[i].id)
      && ReplyCount(r.comments) == ReplyCount(t.comments) + 1
  {
    AppendReplyCount(t.comments, t.replyingTo.value, reply);
    CarryingDistinct(t.comments, t.replyingTo.value);
  }
}

=== FILE: toasts.dfy ===
/** The notification queue (src/contexts/ToastContext.js). The clock that
    supplies a toast's id and the five-second timer are inputs: `AddToast`
    reports which id it scheduled for removal, and the timer firing is a
    later `RemoveToast` with that id. */
module Toasts {
  import opened Wrappers
  import opened Seqs

  datatype Toast = Toast(id: int, message: string, kind: string, autoHide: bool)

  /** The queue after `addToast`, and the id whose removal was scheduled. */
  datatype Added = Added(toasts: seq<Toast>, expiry: Option<int>)

  const DefaultKind: string := "success"

  /** `addToast(message, type = 'success', autoHide = true)` at clock `now`:
      append one toast, and schedule its removal when it hides itself. */
  function AddToast(q: seq<Toast>, now: int, message: string, kind: Option<string>, autoHide: Option<bool>): (r: Added)
    ensures |r.toasts| == |q| + 1 && r.toasts[..|q|] == q
    ensures r.toasts[|q|].message == message && r.toasts[|q|].id == now
    ensures kind.None? ==> r.toasts[|q|].kind == DefaultKind
    ensures kind.Some? ==> r.toasts[|q|].kind == kind.value
    ensures r.toasts[|q|].autoHide == (autoHide.None? || autoHide.value)
    ensures r.expiry.Some? <==> r.toasts[|q|].autoHide
    ensures r.expiry.Some? ==> r.expiry.value == now
  {
    var autoHides := autoHide.GetOr(true);
    var expiry := if autoHides then Some(now) else None;
    Added(q + [Toast(now, message, kind.GetOr(DefaultKind), autoHides)], expiry)
  }

  /** `removeToast(id)`: drop every toast carrying `id`. */
  function RemoveToast(q: seq<Toast>, id: int): (r: seq<Toast>)
    ensures forall t :: t in r ==> t in q && t.id != id
    ensures forall t :: t in q && t.id != id ==> t in r
  {
    Filter(q, (t: Toast) => t.id != id)
  }

  /** Removal keeps the surviving toasts in order, does nothing for an id
      that is not queued, and a second removal of the same id changes
      nothing. */
  lemma RemoveToastLaws(q: seq<Toast>, id: int)
    ensures IsSubsequence(RemoveToast(q, id), q)
    ensures (forall t :: t in q ==> t.id != id) ==> RemoveToast(q, id) == q
    ensures RemoveToast(RemoveToast(q, id), id) == RemoveToast(q, id)
  {
    FilterIsSubsequence(q, (t: Toast) => t.id != id);
    if forall t :: t in q ==> t.id != id {
      FilterAll(q, (t: Toast) => t.id != id);
    }
    FilterIdempotent(q, (t: Toast) => t.id != id);
  }

  /** When the timer of a fresh toast fires, the queue is back to what it
      was before the toast was added (provided no queued toast shared its
      clock-based id). */
  lemma ExpiryUndoesAdd(q: seq<Toast>, now: int, message: string, kind: Option<string>)
    requires forall t :: t in q ==> t.id != now
    ensures AddToast(q, now, message, kind, None).expiry == Some(now)
    ensures RemoveToast(AddToast(q, now, message, kind, None).toasts, now) == q
  {
    var added := AddToast(q, now, message, kind, None).toasts;
    var p := (t: Toast) => t.id != now;
    FilterConcat(q, [added[|q|]], p);
    FilterAll(q, p);
    assert added == q + [added[|q|]];
  }

  /** The toast header's label. */
  function HeaderLabel(kind: string): (r: string)
    ensures r == "Success" <==> kind == "success"
    ensures r == "Error" <==> kind == "danger"
    ensures r == "Notification" <==> kind != "success" && kind != "danger"
  {
    if kind == "success" then "Success" else if kind == "danger" then "Error" else "Notification"
  }
}

=== FILE: user_profile.dfy ===
/** The profile page (src/pages/UserProfile.js): the form filled from the
    session user, the tab-gated fetch of the user's posts, the profile,
    password and account-deletion handlers, and the per-type lists. */
module UserProfile {
  import opened Wrappers
  import opened Text
  import opened Entities
  import opened Seqs
  import opened Api
  import Auth
  import Polls

  const AvatarDir: string := "/Avatars/"
  const AvatarMissing: string := "Please select an avatar"
  const ProfileSaved: string := "Profile updated successfully"
  const ProfileFailed: string := "Failed to update profile"
  const PasswordMismatch: string := "New passwords do not match"
  const PasswordSaved: string := "Password updated successfully"
  const PasswordFailed: string := "Failed to update password"
  const ConfirmationMismatch: string := "Email confirmation does not match"
  const DeleteFailed: string := "Failed to delete account"
  const HomePath: string := "/"
  const RecentLimit: nat := 5

  datatype Passwords = Passwords(currentPassword: string, newPassword: string, confirmPassword: string)

  datatype ProfilePage = ProfilePage(
    form: Profile,
    selectedAvatar: Option<string>,
    tab: string,
    posts: seq<Post>,
    loading: bool,
    error: Option<string>,
    success: Option<string>,
    passwords: Passwords,
    deleteConfirmation: string,
    deleteModal: bool)

  /** The form filled from a user: each field its value, or empty. */
  function InitForm(u: User): (f: Profile)
    ensures f.name == OrElse(u.name, "") && f.email == OrElse(u.email, "")
    ensures f.bio == OrElse(u.bio, "") && f.company == OrElse(u.company, "")
    ensures f.location == OrElse(u.location, "") && f.website == OrElse(u.website, "")
    ensures f.avatar == OrElse(u.avatar, "")
  {
    Profile(OrElse(u.name, ""), OrElse(u.email, ""), OrElse(u.bio, ""), OrElse(u.company, ""),
            OrElse(u.location, ""), OrElse(u.website, ""), OrElse(u.avatar, ""))
  }

  /** The user a profile describes, with empty fields as absent. */
  function AsUser(f: Profile, uid: Option<string>, altId: Option<string>, role: Option<string>): User {
    User(uid, altId, NonEmpty(f.name), NonEmpty(f.email), role, NonEmpty(f.avatar),
         NonEmpty(f.bio), NonEmpty(f.company), NonEmpty(f.location), NonEmpty(f.website))
  }

  function NonEmpty(s: string): (r: Option<string>)
    ensures Truthy(r) <==> s != ""
    ensures OrElse(r, "") == s
  {
    if s == "" then None else Some(s)
  }

  /** Filling the form loses nothing a user's non-empty fields say: reading
      a user back from the form gives the user (up to empty fields), and
      filling from that gives the same form. */
  lemma InitFormRoundTrip(f: Profile, uid: Option<string>, altId: Option<string>, role: Option<string>)
    ensures InitForm(AsUser(f, uid, altId, role)) == f
  {
  }

  /** Whether the mount effect fetches the user's posts on this tab. */
  function FetchesOn(tab: string): (r: bool)
    ensures r <==> tab == "posts" || tab == "activity"
  {
    tab in ["posts", "activity"]
  }

  /** The mount effect (re-run when the user or the tab changes): with a
      user, fill the form and, on the two tabs that list posts, fetch them.
      A failed fetch leaves the list as it was. */
  function Effect(p: ProfilePage, currentUser: Option<User>, resp: Response<Option<seq<Post>>>): (r: Handled<ProfilePage>)
    ensures currentUser.None? ==> r.state == p && r.call.None?
    ensures currentUser.Some? ==> r.state.form == InitForm(currentUser.value)
    ensures r.call.Some? <==> currentUser.Some? && FetchesOn(p.tab)
    ensures r.call.Some? ==> r.call == Some(UserIncidents(UserPathSegment(currentUser.value))) && !r.state.loading
    ensures r.call.Some? && resp.Success? ==> r.state.posts == resp.data.GetOr([])
    ensures !(r.call.Some? && resp.Success?) ==> r.state.posts == p.posts
  {
    match currentUser
    case None => Handled(p, None)
    case Some(u) =>
      var filled := p.(form := InitForm(u));
      if !FetchesOn(p.tab) then Handled(filled, None)
      else
        var call := Some(UserIncidents(UserPathSegment(u)));
        match resp
        case Success(data) => Handled(filled.(posts := data.GetOr([]), loading := false), call)
        case Failure(_) => Handled(filled.(loading := false), call)
  }

  /** On a tab that lists no posts the effect sends nothing and keeps the
      posts; the form it fills reads back as itself; and running the effect
      again with the same user, tab and answer changes nothing more. */
  lemma EffectLaws(p: ProfilePage, currentUser: Option<User>, resp: Response<Option<seq<Post>>>)
    ensures !FetchesOn(p.tab) ==> Effect(p, currentUser, resp).call.None? && Effect(p, currentUser, resp).state.posts == p.posts
    ensures currentUser.Some? ==>
      var f := Effect(p, currentUser, resp).state.form;
      InitForm(AsUser(f, currentUser.value.uid, currentUser.value.altId, currentUser.value.role)) == f
    ensures Effect(Effect(p, currentUser, resp).state, currentUser, resp) == Effect(p, currentUser, resp)
  {
    if currentUser.Some? {
      var u := currentUser.value;
      InitFormRoundTrip(Effect(p, currentUser, resp).state.form, u.uid, u.altId, u.role);
    }
  }

  /** A user none of whose profile fields is an empty string is read back
      unchanged from the form filled from it. */
  lemma FilledFormReadsBackUser(u: User)
    requires u.name != Some("") && u.email != Some("") && u.avatar != Some("") && u.bio != Some("")
    requires u.company != Some("") && u.location != Some("") && u.website != Some("")
    ensures AsUser(InitForm(u), u.uid, u.altId, u.role) == u
  {
  }

  /** A handler that may change the session and navigate. */
  datatype Outcome = Outcome(page: ProfilePage, auth: Auth.AuthState, call: Option<Call>, nav: Option<string>)

  /** The avatar a profile update sends: the chosen picture, else the
      form's. */
  function AvatarToSend(p: ProfilePage): (a: string)
    ensures Truthy(p.selectedAvatar) ==> a == AvatarDir + p.selectedAvatar.value
    ensures !Truthy(p.selectedAvatar) ==> a == p.form.avatar
  {
    if Truthy(p.selectedAvatar) then AvatarDir + p.selectedAvatar.value else p.form.avatar
  }

  /** `handleProfileUpdate`: an empty avatar is refused before any request;
      otherwise the form is sent with the avatar to send; on success the
      session adopts the returned user and the form its avatar. */
  function UpdateProfile(p: ProfilePage, auth: Auth.AuthState, resp: Response<User>): (r: Outcome)
    ensures r.nav.None?
    ensures p.form.avatar == "" ==>
      r == Outcome(p.(error := Some(AvatarMissing), success := None), auth, None, None)
    ensures p.form.avatar != "" ==>
      && r.call == Some(Api.UpdateProfile(p.form.(avatar := AvatarToSend(p))))
      && !r.page.loading
    ensures p.form.avatar != "" && resp.Success? ==>
      && r.auth == Auth.UpdateUserProfile(auth, resp.data)
      && r.page.form == p.form.(avatar := OrElse(resp.data.avatar, ""))
      && r.page.selectedAvatar.None? && r.page.success == Some(ProfileSaved) && r.page.error.None?
    ensures p.form.avatar != "" && resp.Failure? ==>
      && r.auth == auth && r.page.form == p.form
      && r.page.error == Some(OrElse(resp.message, ProfileFailed))
  {
    var cleared := p.(error := None, success := None);
    if p.form.avatar == "" then Outcome(cleared.(error := Some(AvatarMissing)), auth, None, None)
    else
      var call := Some(Api.UpdateProfile(p.form.(avatar := AvatarToSend(p))));
      match resp
      case Success(u) =>
        var page := cleared.(success := Some(ProfileSaved), form := p.form.(avatar := OrElse(u.avatar, "")),
                             selectedAvatar := None, loading := false);
        Outcome(page, Auth.UpdateUserProfile(auth, u), call, None)
      case Failure(m) => Outcome(cleared.(error := Some(OrElse(m, ProfileFailed)), loading := false), auth, call, None)
  }

  /** After a successful update the session, the stored user and a
      re-filled form all agree with what the server returned. */
  lemma UpdatedProfileIsAdopted(p: ProfilePage, auth: Auth.AuthState, u: User)
    requires p.form.avatar != ""
    ensures var r := UpdateProfile(p, auth, Success(u));
      && r.auth.currentUser == Some(u)
      && Auth.Hydrate(Auth.Mount(r.auth.store)).currentUser == Some(u)
      && InitForm(r.auth.currentUser.value).avatar == r.page.form.avatar
  {
  }

  /** `handlePasswordUpdate`: a new password that differs from its
      confirmation is refused before any request; on success every password
      field is cleared. */
  function UpdatePassword(p: ProfilePage, resp: Response<User>): (r: Handled<ProfilePage>)
    ensures p.passwords.newPassword != p.passwords.confirmPassword ==>
      r.call.None? && r.state == p.(error := Some(PasswordMismatch), success := None)
    ensures p.passwords.newPassword == p.passwords.confirmPassword ==>
      r.call == Some(Api.UpdatePassword(p.passwords.currentPassword, p.passwords.newPassword)) && !r.state.loading
    ensures p.passwords.newPassword == p.passwords.confirmPassword && resp.Success? ==>
      r.state.passwords == Passwords("", "", "") && r.state.success == Some(PasswordSaved) && r.state.error.None?
    ensures p.passwords.newPassword == p.passwords.confirmPassword && resp.Failure? ==>
      r.state.passwords == p.passwords && r.state.error == Some(OrElse(resp.message, PasswordFailed))
  {
    var cleared := p.(error := None, success := None);
    if p.passwords.newPassword != p.passwords.confirmPassword then Handled(cleared.(error := Some(PasswordMismatch)), None)
    else
      var call := Some(Api.UpdatePassword(p.passwords.currentPassword, p.passwords.newPassword));
      match resp
      case Success(_) => Handled(cleared.(success := Some(PasswordSaved), passwords := Passwords("", "", ""), loading := false), call)
      case Failure(m) => Handled(cleared.(error := Some(OrElse(m, PasswordFailed)), loading := false), call)
  }

  /** Every password request carries a new password equal to its
      confirmation, together with the current password typed; an update
      that is refused or fails leaves the typed passwords as they were. */
  lemma PasswordRequestsAreConfirmed(p: ProfilePage, resp: Response<User>)
    ensures var r := UpdatePassword(p, resp);
      r.call.Some? ==>
        && r.call.value.UpdatePassword?
        && r.call.value.newPassword == p.passwords.confirmPassword
        && r.call.value.currentPassword == p.passwords.currentPassword
    ensures var r := UpdatePassword(p, resp);
      r.call.None? || resp.Failure? ==> r.state.passwords == p.passwords
    ensures var r := UpdatePassword(p, resp);
      r.call.None? ==> r.state.error == Some(PasswordMismatch)
  {
  }

  /** `deleteConfirmation === currentUser?.email`. */
  predicate ConfirmationMatches(confirmation: string, currentUser: Option<User>) {
    currentUser.Some? && currentUser.value.email == Some(confirmation)
  }

  /** The delete button's `disabled`. */
  function DeleteDisabled(p: ProfilePage, currentUser: Option<User>): (r: bool)
    ensures p.loading ==> r
    ensures !r <==> currentUser.Some? && currentUser.value.email == Some(p.deleteConfirmation) && !p.loading
  {
    !ConfirmationMatches(p.deleteConfirmation, currentUser) || p.loading
  }

  /** `handleDeleteAccount`: only a confirmation equal to the user's email
      issues the request; success signs out and goes home, failure shows
      the error and closes the dialog. */
  function DeleteAccount(p: ProfilePage, auth: Auth.AuthState, resp: Response<User>): (r: Outcome)
    ensures r.call.Some? <==> ConfirmationMatches(p.deleteConfirmation, auth.currentUser)
    ensures r.call.None? ==> r == Outcome(p.(error := Some(ConfirmationMismatch)), auth, None, None)
    ensures r.call.Some? ==> r.call == Some(Api.DeleteAccount) && !r.page.loading
    ensures r.call.Some? && resp.Success? ==> r.auth == Auth.Logout(auth) && r.nav == Some(HomePath)
    ensures r.call.Some? && resp.Failure? ==>
      && r.auth == auth && r.nav.None? && !r.page.deleteModal
      && r.page.error == Some(OrElse(resp.message, DeleteFailed))
  {
    if !ConfirmationMatches(p.deleteConfirmation, auth.currentUser) then
      Outcome(p.(error := Some(ConfirmationMismatch)), auth, None, None)
    else
      match resp
      case Success(_) => Outcome(p.(loading := false), Auth.Logout(auth), Some(Api.DeleteAccount), Some(HomePath))
      case Failure(m) =>
        Outcome(p.(error := Some(OrElse(m, DeleteFailed)), deleteModal := false, loading := false), auth, Some(Api.DeleteAccount), None)
  }

  /** The button is enabled only when pressing it would issue the request,
      and a completed deletion leaves nobody signed in. */
  lemma EnabledButtonDeletes(p: ProfilePage, auth: Auth.AuthState, resp: Response<User>)
    ensures !DeleteDisabled(p, auth.currentUser) ==> DeleteAccount(p, auth, resp).call == Some(Api.DeleteAccount)
    ensures DeleteAccount(p, auth, resp).call.Some? && !p.loading ==> !DeleteDisabled(p, auth.currentUser)
    ensures resp.Success? && DeleteAccount(p, auth, resp).call.Some? ==>
      DeleteAccount(p, auth, resp).auth.currentUser.None?
  {
  }

  /** `userPosts.filter(post => post.type === kind)`. */
  function OfKind(posts: seq<Post>, kind: string): (r: seq<Post>)
    ensures forall q :: q in r ==> q in posts && q.kind == kind
    ensures forall i :: 0 <= i < |posts| && posts[i].kind == kind ==> posts[i] in r
  {
    Filter(posts, (q: Post) => q.kind == kind)
  }

  /** Each per-type list keeps the posts' order, and the question and issue
      counts of the summary never exceed the number of posts. */
  lemma OfKindLaws(posts: seq<Post>, kind: string)
    ensures IsSubsequence(OfKind(posts, kind), posts)
    ensures |OfKind(posts, "question")| + |OfKind(posts, "issue")| <= |posts|
  {
    FilterIsSubsequence(posts, (q: Post) => q.kind == kind);
    FilterDisjoint(posts, (q: Post) => q.kind == "question", (q: Post) => q.kind == "issue");
  }

  /** The recent-activity list: the first five posts. */
  function RecentActivity(posts: seq<Post>): (r: seq<Post>)
    ensures |r| == if |posts| <= RecentLimit then |posts| else RecentLimit
    ensures r == posts[..|r|]
    ensures |posts| <= RecentLimit ==> r == posts
  {
    Take(posts, RecentLimit)
  }

  /** Posts after the fifth never reach the recent list, and taking the
      recent list of the recent list changes nothing. */
  lemma RecentIgnoresLaterPosts(posts: seq<Post>, later: seq<Post>)
    ensures |posts| >= RecentLimit ==> RecentActivity(posts + later) == RecentActivity(posts)
    ensures RecentActivity(RecentActivity(posts)) == RecentActivity(posts)
  {
    if |posts| >= RecentLimit {
      assert (posts + later)[..RecentLimit] == posts[..RecentLimit];
    }
  }

  /** The vote total shown under a poll. */
  function PollVotes(post: Post): (n: int)
    ensures n >= 0
    ensures forall i :: 0 <= i < |post.options| ==> Polls.Count(post.options[i]) <= n
  {
    Polls.TotalBounds(post.options);
    Polls.Total(post.options)
  }
}

=== FILE: wrappers.dfy ===
/** Optional values and results, the model's stand-in for JavaScript's
    `undefined`/`null` and for thrown errors. */
module Wrappers {

  /** A value that may be missing (`undefined` or `null` in the source). */
  datatype Option<+T> = None | Some(value: T) {

    /** The value, or `default` when it is missing. */
    function GetOr(default: T): T {
      match this
      case Some(v) => v
      case None => default
    }
  }

  /** The outcome of an operation that either returns a value or throws. */
  datatype Result<+T, +E> = Ok(value: T) | Err(error: E)
}
